=== FILE: README.md ===
# NeuroMorphoVis core logic in Dafny

This project models the host-independent logic inside the NeuroMorphoVis Blender add-on and
proves properties of it. It covers five pieces.

- **Colour codec** (`Colors`). `rgb_to_hex` formats an integer triple as `#rrggbb` with
  Python's `'%02x'`. `hex_to_rgb` strips every leading `#` and parses the slices `[0:2]`,
  `[2:4]` and `[4:6]` with `int(_, 16)`. A slice Python rejects becomes `None`, which stands
  for the `ValueError`.
- **Meshing option parsers** (`MeshingEnums`). Every `get_enum` is a case-sensitive lookup
  with a fixed default. The constant strings of each option class are a datatype, with
  `Value` giving the stored string and `Keyword` the accepted argument.
- **Spine bookkeeping** (`SpinyOps`). This covers:
  - the branching-order gate;
  - the density-to-count computation with its two clamps;
  - sampling faces without replacement;
  - the assembly of each placed template into `SpineSection`s whose sample indices run
    0, 1, 2, … across the whole spine;
  - the append-only extension of `result`;
  - the per-segment sampling of `get_random_spines_across_segments`.
- **Piecewise builder plan** (`PiecewiseBuilder`). The edges option selects a plan: bevel
  sides, caps, roots mode and post-processing pass. `build_arbors` draws the three arbor
  groups. `reconstruct_mesh` runs its stages in a fixed order. Every call into the host is
  recorded as a `HostCall`, so a contract can say what was called, in which order and with
  which settings.
- **Batch renderer strings** (`RenderAstrocyte`). This covers:
  - reading the astrocyte list (newline translation, one entry per line, and removal of
    newlines and spaces);
  - the quality-checker command line;
  - the names and paths derived from each astrocyte file name.

Two shared modules sit underneath. `PyStr` holds the Python string operations with Python's
semantics: `str.replace` (left to right, without overlaps), `lstrip` of one character, and
clamped slicing. `Results` holds `Option` and `Result`.

The list file is opened in text mode, which translates line endings: `\r\n` and a lone `\r`
both become `\n` before the loop sees a line. So a carriage return never survives into an
entry; it ends a line exactly as `\n` does. `RenderAstrocyte.Translate` models this
translation, and `TranslateIsReplace` equates it with the two `replace` calls. Every property
of the entries is stated over the translated text.

Randomness, the host and geometry are parameters of the model:
- The draws of `random.sample` and `random.choice` are parameters, required to be draws those
  functions can return. `SpinyOps.SampleExistsIff` proves that such a draw exists exactly
  when Python would not raise.
- Faces are opaque identifiers.
- Placing a template point (scale, translation and rotation through the template's matrix)
  is a function parameter.
- Drawing an arbor is a function parameter that returns the objects the host created.

## Model

| member | source | states |
|---|---|---|
| `Colors.HexNumeral` | nmv/utilities/colors.py:50 | The `%x` numeral of `n` is lower-case hex with value `n` and no leading zero, and it is one digit exactly when `n < 16`. |
| `Colors.Format02x` | nmv/utilities/colors.py:50 | `%02x` gives at least two characters. A byte gives exactly two digits whose pair value is the byte. A negative gives `-` followed by the digits of its magnitude. |
| `Colors.RgbToHex` | nmv/utilities/colors.py:40-50 | The output starts with `#`. For a byte triple it is 7 characters: six lower-case digits, two per component, high digit first, in R, G, B order. |
| `Colors.ParseHex` | nmv/utilities/colors.py:66 | `int(t, 16)` on a slice of at most two characters. <br> • A digit pair gives its value, and a single character parses exactly when it is a digit. <br> • A sign or whitespace before a digit, or whitespace after one, is accepted. Whitespace means tab, line feed, vertical tab, form feed, carriage return and space. <br> • Any other non-digit, the separators 0x1c–0x1f included, makes the parse fail, and so does an empty slice. <br> • A success lies in -15..255, and it is negative only after a `-` sign. |
| `Colors.DecodeDigits` | nmv/utilities/colors.py:66 | Six leading hex digits decode to the three pair values. Any success needs at least five characters. |
| `Colors.HexToRgb` | nmv/utilities/colors.py:56-66 | After the `#` strip, six hex digits give a byte triple. Four characters or fewer always fail. |
| `Colors.HexToRgbRejectsForeign` | nmv/utilities/colors.py:56-66 | An ASCII character in one of the six digit positions that is not a digit, a sign or whitespace makes `hex_to_rgb` fail. |
| `Colors.SeparatorIsForeign` | nmv/utilities/colors.py:66 | `hex_to_rgb` fails on the file separator 0x1c followed by `abcdef`. |
| `PyStr.LStrip` | nmv/utilities/colors.py:65 | `lstrip(c)` returns a suffix that does not start with `c`, and the removed prefix consists only of copies of `c`. |
| `PyStr.Slice` | nmv/utilities/colors.py:66 | A Python slice with clamped bounds: in range it is the subsequence, past the end it is the tail, and a reversed or out-of-range slice is empty. |
| `Colors.LStripHashes` | nmv/utilities/colors.py:65 | Any number of leading `#` is stripped. |
| `Colors.HexToRgbIgnoresHashes` | nmv/utilities/colors.py:65 | `hex_to_rgb` gives the same result with any number of leading `#`, none included. |
| `Colors.HexToRgbIgnoresTail` | nmv/utilities/colors.py:66 | Characters after the sixth are ignored. |
| `Colors.HexRoundTrip` | nmv/utilities/colors.py:50-66 | `hex_to_rgb(rgb_to_hex(c)) == c` for every byte triple. |
| `Colors.FormatPair` | nmv/utilities/colors.py:50 | Printing the value of two hex digits gives the same two digits in lower case. |
| `Colors.EncodePairs` | nmv/utilities/colors.py:50 | Printing the pair values of six digits gives `#` and those digits in lower case. |
| `Colors.DecodeSixDigits` | nmv/utilities/colors.py:65-66 | `#` plus six hex digits decodes to the values of the three digit pairs. |
| `Colors.HexReverseRoundTrip` | nmv/utilities/colors.py:50-66 | A well-formed `#rrggbb` decodes, and printing the result gives the input with its letters in lower case. |
| `MeshingEnums.ParseTechnique` | nmv/enums/meshing_enums.py:61-81 | `union`, `skinning` and `meta-balls` select their constants, and only those arguments do. Every other argument gives the piecewise-watertight default. |
| `MeshingEnums.ParsePiecewiseFilling` | nmv/enums/meshing_enums.py:106-118 | SECTIONS if and only if the argument is `sections`; otherwise PATHS. |
| `MeshingEnums.ParseSomaConnection` | nmv/enums/meshing_enums.py:143-155 | CONNECTED if and only if the argument is `connected`; otherwise DISCONNECTED. |
| `MeshingEnums.ParseObjectsConnection` | nmv/enums/meshing_enums.py:180-192 | CONNECTED if and only if the argument is `connected`; otherwise DISCONNECTED. |
| `MeshingEnums.ParseEdges` | nmv/enums/meshing_enums.py:217-229 | SMOOTH if and only if the argument is `smooth`; otherwise HARD. |
| `MeshingEnums.ParseSurface` | nmv/enums/meshing_enums.py:254-266 | ROUGH if and only if the argument is `rough`; otherwise SMOOTH. |
| `MeshingEnums.ParseSpinesSource` | nmv/enums/meshing_enums.py:326-338 | RANDOM if and only if `random`, CIRCUIT if and only if `circuit`; otherwise IGNORE. |
| `MeshingEnums.ParseSpinesQuality` | nmv/enums/meshing_enums.py:363-371 | HQ if and only if the argument is `hq`; otherwise LQ. |
| `MeshingEnums.ParseNucleusQuality` | nmv/enums/meshing_enums.py:415-423 | HQ if and only if the argument is `hq`; otherwise LQ. |
| `MeshingEnums.KeywordsParseBack` | nmv/enums/meshing_enums.py:61-423 | Every constant's keyword parses back to that constant. |
| `MeshingEnums.NonDefaultHasOnePreimage` | nmv/enums/meshing_enums.py:61-423 | Each non-default constant is reached only from its own keyword. |
| `MeshingEnums.ValuesAreDistinct` | nmv/enums/meshing_enums.py:35-445 | Within each option class the constant strings are pairwise distinct. |
| `SpinyOps.Trunc` | nmv/skeleton/ops/skeleton_spiny_ops.py:123 | `int()` of a float truncates toward zero: the result lies within one of the value, on the zero side. |
| `SpinyOps.SpineCount` | nmv/skeleton/ops/skeleton_spiny_ops.py:123-158 | Covers the count after both clamps: <br> • The count never exceeds the face count. <br> • A request between 1 and the face count is kept. <br> • A request below 1 gives 1 when there is a face. <br> • A request above the face count gives half the face count, rounded down. <br> • The count is 0 exactly when there are no faces, or when there is one face and more than one spine was requested. |
| `SpinyOps.SampleExistsIff` | nmv/skeleton/ops/skeleton_spiny_ops.py:158 | A draw of `k` distinct faces out of `F` exists if and only if `k <= F`, which is when `random.sample` does not raise. |
| `SpinyOps.SpineCountCanBeSampled` | nmv/skeleton/ops/skeleton_spiny_ops.py:154-158 | After the clamps a valid draw always exists. |
| `SpinyOps.SplineSamples` | nmv/skeleton/ops/skeleton_spiny_ops.py:204-213 | One sample per spline point, in point order: the point placed, its radius, and the index `first + j`. |
| `SpinyOps.BuildSplineSamples` | nmv/skeleton/ops/skeleton_spiny_ops.py:203-213 | The point loop builds exactly those samples and advances the running index by the number of points. |
| `SpinyOps.AssembleSpine` | nmv/skeleton/ops/skeleton_spiny_ops.py:198-217 | The spline loop yields one section per spline, each indexed from the number of points of the splines before it. |
| `SpinyOps.SpineIndicesConsecutive` | nmv/skeleton/ops/skeleton_spiny_ops.py:199-213 | Across one spine the sample indices are exactly 0, 1, 2, …, one per template point. |
| `SpinyOps.NewSpines` | nmv/skeleton/ops/skeleton_spiny_ops.py:161-220 | The sections for the sampled faces number the total spline count of the picked templates. |
| `SpinyOps.NewSpinesBlock` | nmv/skeleton/ops/skeleton_spiny_ops.py:161-220 | The spine of the `i`-th sampled face sits directly after the spines of the faces sampled before it, in spline order. |
| `SpinyOps.SpinesAcrossSection` | nmv/skeleton/ops/skeleton_spiny_ops.py:115-220 | Covers `get_random_spines_across_section`: <br> • A section above the branching-order limit leaves `result` unchanged. <br> • The call fails (`random.choice` on an empty list) exactly when the section passes the gate, there are no templates, and the count is positive. <br> • Otherwise `result` is only appended to: the appended block is the spines of the sampled faces in sampling order (`NewSpines`), and its length is the total spline count of the picked templates. |
| `SpinyOps.AnchorsUpTo` | nmv/skeleton/ops/skeleton_spiny_ops.py:56-77 | `k` segments give `k * n` anchors. |
| `SpinyOps.AnchorsUpToAt` | nmv/skeleton/ops/skeleton_spiny_ops.py:56-77 | Anchor `j` of segment `i` is entry `i * n + j`: segment by segment, in order. |
| `SpinyOps.SegmentBlock` | nmv/skeleton/ops/skeleton_spiny_ops.py:72-77 | The face loop of one segment yields the anchors of the drawn faces, in order. |
| `SpinyOps.SpinesAcrossSegments` | nmv/skeleton/ops/skeleton_spiny_ops.py:40-83 | Covers `get_random_spines_across_segments`: <br> • It succeeds if and only if every segment has at least `n >= 0` faces; otherwise `random.sample` raises and nothing is appended. <br> • On success `result` gains exactly `n * (len(samples) - 1)` entries, segment by segment, at its end. |
| `PiecewiseBuilder.HardRoots` | nmv/builders/mesh/piecewise_builder.py:243-249 | With hard edges, roots connect to the soma if and only if the soma is a soft body and the soma connection is CONNECTED. |
| `PiecewiseBuilder.SoftRoots` | nmv/builders/mesh/piecewise_builder.py:280-283 | With soft edges, roots connect to the soma if and only if the soma connection is CONNECTED. |
| `PiecewiseBuilder.HardEdgesPlan` | nmv/builders/mesh/piecewise_builder.py:239-264 | 16-sided bevel, closed caps, the close-open-faces pass, and the hard-edges roots rule. |
| `PiecewiseBuilder.SoftEdgesPlan` | nmv/builders/mesh/piecewise_builder.py:276-298 | 4-sided bevel, open caps, level-2 smoothing, and the soft-edges roots rule. |
| `PiecewiseBuilder.SoftPlanIgnoresSomaType` | nmv/builders/mesh/piecewise_builder.py:280-283 | The soft-edges plan does not depend on the soma representation. |
| `PiecewiseBuilder.ArborPlan` | nmv/builders/mesh/piecewise_builder.py:318-327 | A plan is chosen if and only if `edges` is the HARD or SMOOTH constant: HARD gives the hard plan and SMOOTH the soft plan. |
| `PiecewiseBuilder.ParsedEdgesHavePlan` | nmv/builders/mesh/piecewise_builder.py:319-327 | An edges value produced by `Edges.get_enum` never reaches the error branch. The bevel has 16 sides exactly when the argument was not `smooth`. |
| `PiecewiseBuilder.BuildGroup` | nmv/builders/mesh/piecewise_builder.py:133-161 | For every arbor, in order: it is drawn once, a non-empty drawn list sets the arbor's mesh to its first object (an empty list sets nothing), the drawn lists are appended whole and in order, and each object is converted. |
| `PiecewiseBuilder.BuildGroupIfActive` | nmv/builders/mesh/piecewise_builder.py:131-161 | An ignored or empty group makes no host call and changes nothing. Otherwise only that group changes, and every draw uses that group's own branch-order limit. |
| `PiecewiseBuilder.BuildArbors` | nmv/builders/mesh/piecewise_builder.py:106-229 | Covers `build_arbors`: <br> • Each of the three groups gets its outcome. <br> • Every call is a draw or a conversion. <br> • Every draw uses the given caps and roots mode and its own group's limit, and only active groups are drawn. |
| `PiecewiseBuilder.RunPlan` | nmv/builders/mesh/piecewise_builder.py:234-301 | The bevel with the plan's sides is created first and deleted last, and no other bevel call happens in between. Just before the delete, the post pass runs once on every mesh of the three final lists, in list order. |
| `PiecewiseBuilder.ReconstructArborsMeshes` | nmv/builders/mesh/piecewise_builder.py:306-327 | Covers `reconstruct_arbors_meshes`: <br> • HARD starts with a 16-sided bevel and SMOOTH with a 4-sided one, and both end by deleting it, with no other bevel call in between. <br> • Just before the delete, HARD closes the open faces of every final mesh and SMOOTH smooths every final mesh at level 2. <br> • Each of the three groups gets its outcome under the chosen plan's caps and roots. <br> • Any other value logs an error and changes nothing. |
| `PiecewiseBuilder.EveryStageOnce` | nmv/builders/mesh/piecewise_builder.py:345-398 | For whatever host calls the arbor stage makes, the log of the fixed stage order starts each of the twelve stages, and starts none of them twice. |
| `PiecewiseBuilder.ReconstructMesh` | nmv/builders/mesh/piecewise_builder.py:332-409 | Covers `reconstruct_mesh`: <br> • Stage order: materials, skeleton update, connectivity, soma, arbors, then connect, decimate, noise, spines, join, transform and stats. <br> • Only host calls sit between the arbors stage and the connect stage. <br> • The single error entry appears exactly when the edges value is unknown. <br> • Every stage starts exactly once in the log. <br> • The arbors stage starts from the builder as the skeleton repair and connectivity filter leave it. With a known edges value the options are kept and the apical, basal and axon groups end as the arbor reconstruction leaves them; with an unknown one that builder is unchanged. |
| `PyStr.ReplaceAllAbsent` | scripts/astrocytes-rendering/render-astrocyte.py:381 | Replacing a pattern that does not occur changes nothing. |
| `PyStr.ReplaceAllFirstMatch` | scripts/astrocytes-rendering/render-astrocyte.py:381 | `replace` keeps the text before the first occurrence, substitutes it, and continues after it. |
| `PyStr.ReplaceCharByEmpty` | scripts/astrocytes-rendering/render-astrocyte.py:97 | Replacing one character by `''` deletes exactly that character and keeps the rest in order. |
| `RenderAstrocyte.Translate` | scripts/astrocytes-rendering/render-astrocyte.py:95 | Text-mode reading leaves no `\r`. |
| `RenderAstrocyte.TranslateKeepsText` | scripts/astrocytes-rendering/render-astrocyte.py:95 | Apart from line breaks, the translated text keeps every character in order. |
| `RenderAstrocyte.TranslateIsReplace` | scripts/astrocytes-rendering/render-astrocyte.py:95 | Reading in text mode equals `raw.replace('\r\n', '\n').replace('\r', '\n')`: each `\r\n` pair and each remaining lone `\r` becomes exactly one `\n`. |
| `RenderAstrocyte.TranslatePlain` | scripts/astrocytes-rendering/render-astrocyte.py:95 | Text without `\r` reads unchanged. |
| `RenderAstrocyte.Lines` | scripts/astrocytes-rendering/render-astrocyte.py:96 | Iterating a file yields lines that join back to the text. Each line is non-empty, has `\n` only at its end, and every line but the last ends with it. |
| `RenderAstrocyte.LinesUnique` | scripts/astrocytes-rendering/render-astrocyte.py:96 | That division into lines is the only one. |
| `RenderAstrocyte.LineCount` | scripts/astrocytes-rendering/render-astrocyte.py:96 | One line per `\n`, plus one for a final line without `\n`. |
| `RenderAstrocyte.CleanLineDrops` | scripts/astrocytes-rendering/render-astrocyte.py:97 | Cleaning removes exactly the newlines and spaces. Tabs and every other character are kept, in order. |
| `RenderAstrocyte.CleanLineIdempotent` | scripts/astrocytes-rendering/render-astrocyte.py:97 | Cleaning is idempotent, and cleaned entries contain no space or newline. |
| `RenderAstrocyte.AstrocytePaths` | scripts/astrocytes-rendering/render-astrocyte.py:84-101 | Covers reading the list: <br> • One entry per line of the translated text: one per line break, plus one for a last line without one. A blank line gives an empty entry. <br> • Entry `k` is line `k` with its newlines and spaces removed. <br> • Joined together, the entries are the file's text without newlines and spaces. |
| `RenderAstrocyte.QualityCheckerFields` | scripts/astrocytes-rendering/render-astrocyte.py:125-126 | Split on spaces, the command is exactly `<exe> --mesh <path> --output-directory <dir>` when no argument holds a space. |
| `RenderAstrocyte.QualityCheckerFieldCount` | scripts/astrocytes-rendering/render-astrocyte.py:125-126 | Each space inside an argument adds a field to the command. |
| `RenderAstrocyte.ReplaceSuffix` | scripts/astrocytes-rendering/render-astrocyte.py:381 | A pattern whose first character does not recur in it, present once at the end, is the only part `replace` rewrites. |
| `RenderAstrocyte.OutputLayout` | scripts/astrocytes-rendering/render-astrocyte.py:354-361 | `intermediate-images`, `images` and `scenes` are three distinct directories. |
| `RenderAstrocyte.LayoutUnderOutput` | scripts/astrocytes-rendering/render-astrocyte.py:354-361 | Each of them is `<out>/<name>`. |
| `RenderAstrocyte.PanelsAndStatsNeverCollide` | scripts/astrocytes-rendering/render-astrocyte.py:231-274 | A `-stats` directory is never a `-panels` directory, so removing one never removes the other. |
| `RenderAstrocyte.RenderingImageOutsideStats` | scripts/astrocytes-rendering/render-astrocyte.py:249-267 | The rendering that the combination reads is `<panels>/<mesh>.png`, and it does not lie inside the same mesh's stats directory, which is removed just before. |
| `RenderAstrocyte.CombinedImageOutsideIntermediate` | scripts/astrocytes-rendering/render-astrocyte.py:266-274 | The combined image is `<out>/images/<mesh>`, outside the intermediate tree where the panels are removed. |
| `RenderAstrocyte.MeshNamesOfStem` | scripts/astrocytes-rendering/render-astrocyte.py:381-408 | For `<stem>.obj`, the mesh names are `<stem>-skinned` and `<stem>-optimized`. |
| `RenderAstrocyte.SkinnedAndOptimizedNeverCollide` | scripts/astrocytes-rendering/render-astrocyte.py:381-408 | The skinned and optimized names of any two astrocytes differ, and so do their panels and stats directories. |
| `RenderAstrocyte.OptimizedPathOfStem` | scripts/astrocytes-rendering/render-astrocyte.py:371-405 | `<stem>.obj` is read from `<in>/skinned/<stem>.obj` and `<in>/optimized/<stem>-manifold.obj`. |
| `RenderAstrocyte.InputMeshesDiffer` | scripts/astrocytes-rendering/render-astrocyte.py:371-405 | For every list entry, including blank entries and names without `.obj`, the skinned and optimized inputs are different files. |
| `RenderAstrocyte.ArtisticPathOfManifold` | scripts/astrocytes-rendering/render-astrocyte.py:320-325 | For a mesh named `<stem>-manifold`, the artistic image is `<images>/<stem>-artistic.png`. |
| `RenderAstrocyte.ArtisticSceneKeepsExtension` | scripts/astrocytes-rendering/render-astrocyte.py:331 | The artistic scene name removes only `manifold.obj`, so `a.obj` gives `a.obj-artistic`. |
| `RenderAstrocyte.ComparisonPathOfStem` | scripts/astrocytes-rendering/render-astrocyte.py:424 | For `<stem>.obj` the comparison image is `<images>/<stem>-skinned-optimized.png`. |

## Left out

- Every `bpy` and `mathutils` call. This covers building curves, bevels and proxy meshes,
  converting to meshes, closing faces, smoothing, materials, lights, cameras, rendering and
  `.blend` export. These host operations are opaque: a `HostCall` records each call the
  builder makes, and its effect is not modelled.
- Float geometry. This covers spine placement and orientation, the template's transformation
  matrix, section length, the 0.75 colour scaling and `rgb_vector_to_hex`'s `int(x * 255)`.
  Placement is a function parameter, and the section length and density are reals used only
  through their truncated product.
- SpinyOps.SpinesAcrossSection: the template chosen for a face is the draw `picks`. The model
  does not carry over the scaling and translation an earlier placement left on a template
  object, because placement is a parameter.
- The proxy mesh of `use_skinning_to_build_proxy`. Either way the model receives only the
  list of faces.
- Randomness. `random.sample` and `random.choice` draws are parameters constrained to
  possible draws; no distribution is modelled.
- File reading, `os.makedirs`, `shutil.rmtree`, `subprocess.call`, argparse and the
  `sys.argv` slicing are I/O. The model covers only the strings they consume or produce.
  Decoding the file's bytes into characters is also left out.
- RenderAstrocyte.QualityCheckerFields: the shell splits words on any whitespace and
  interprets quotes. The lemma splits on the single space only.
- Colors.ParseHex, Colors.HexToRgbRejectsForeign: Python's `int(_, 16)` also accepts Unicode
  digits (such as U+0661) and Unicode whitespace from U+0080 up. The model treats every
  character from U+0080 up as foreign, so its failure clauses hold for ASCII text only. The
  separators 0x1c–0x1f are rejected on every path, as in the model.
- PiecewiseBuilder.ReconstructMesh: the skeleton repair and the connectivity filter run in the
  host. Their result is the `prepared` parameter, taken to keep the options. What the stages
  after the arbors (connect, decimate, noise, spines, join, transform, stats) do to the builder
  is not modelled, so `b'` is the builder when the arbors stage ends. The mesh list that
  `reconstruct_mesh` returns, the profiling statistics and the statistics file are left out too.
- The `plotting` module, `nmv.utilities.parse_color_from_argument` and the skeleton and host
  helpers the builder calls are not part of this model. `has_apical_dendrites` and its
  siblings are taken to mean that the group is non-empty.
- `nmv/enums/input_enums.py` holds constants only. `Soma.Representation` and
  `Skeleton.Roots` are not shown, so they are two-valued datatypes here: SOFT_BODY or other,
  and to-soma or to-origin.
- The mutable default `result=[]` of the spine functions. `result` is an explicit
  parameter, and the extended list is returned.
- Logging, profiling strings, `print(number_spines)`, and the statistics file of
  `reconstruct_mesh`.
- `process_mesh` reads the module-level loop variable `astrocyte` for the artistic scene
  name. The model passes that name explicitly.

=== FILE: colors.dfy ===
/**
 The integer colour codec of the add-on's colour utilities: `rgb_to_hex` prints an RGB
 triple as `#rrggbb` with Python's `'%02x'` format, and `hex_to_rgb` strips the leading
 `#` characters and reads the two-character slices at offsets 0, 2 and 4 with
 `int(slice, 16)`.
 */
module Colors {
  import opened Results
  import opened PyStr

  /** An RGB colour as the Python tuple `(r, g, b)` of integers. */
  datatype Rgb = Rgb(red: int, green: int, blue: int)

  predicate IsByte(n: int) { 0 <= n <= 255 }

  predicate IsByteColor(c: Rgb)
  {
    IsByte(c.red) && IsByte(c.green) && IsByte(c.blue)
  }

  predicate IsHexDigit(c: char)
  {
    '0' <= c <= '9' || 'a' <= c <= 'f' || 'A' <= c <= 'F'
  }

  predicate IsLowerHexDigit(c: char)
  {
    '0' <= c <= '9' || 'a' <= c <= 'f'
  }

  predicate AllHex(s: string)
  {
    forall i :: 0 <= i < |s| ==> IsHexDigit(s[i])
  }

  predicate AllLowerHex(s: string)
  {
    forall i :: 0 <= i < |s| ==> IsLowerHexDigit(s[i])
  }

  /** The ASCII characters Python's `int()` strips around the digits: tab, line feed,
      vertical tab, form feed, carriage return and the space. The separators 0x1c..0x1f
      are not among them, whatever else the string holds. */
  predicate IsPySpace(c: char)
  {
    c == ' ' || 9 <= c as int <= 13
  }

  /** A character that is neither an ASCII hex digit, nor a sign, nor ASCII whitespace. On
      ASCII text it can stand in no position of an `int(_, 16)` argument of at most two
      characters; Unicode digits and whitespace from U+0080 up are outside the model. */
  predicate IsForeign(c: char)
  {
    !IsHexDigit(c) && c != '+' && c != '-' && !IsPySpace(c)
  }

  /** The value of one hexadecimal digit, either case. */
  function DigitValue(c: char): (d: nat)
    requires IsHexDigit(c)
    ensures d < 16
  {
    if '0' <= c <= '9' then c as int - '0' as int
    else if 'a' <= c <= 'f' then c as int - 'a' as int + 10
    else c as int - 'A' as int + 10
  }

  /** The lower-case digit `%x` prints for a value below 16. */
  function HexDigit(d: nat): (c: char)
    requires d < 16
    ensures IsLowerHexDigit(c) && DigitValue(c) == d
  {
    if d < 10 then ('0' as int + d) as char else ('a' as int + d - 10) as char
  }

  /** A hexadecimal digit in lower case. */
  function LowerDigit(c: char): (l: char)
    requires IsHexDigit(c)
    ensures IsLowerHexDigit(l) && DigitValue(l) == DigitValue(c)
  {
    if 'A' <= c <= 'F' then (c as int + 32) as char else c
  }

  /** A string of hexadecimal digits with every letter in lower case. */
  function LowerHex(s: string): (r: string)
    requires AllHex(s)
    ensures |r| == |s|
    ensures forall i :: 0 <= i < |s| ==> r[i] == LowerDigit(s[i])
  {
    if |s| == 0 then "" else [LowerDigit(s[0])] + LowerHex(s[1..])
  }

  /** The number a string of hexadecimal digits denotes, most significant digit first. */
  function HexValue(s: string): nat
    requires AllHex(s)
  {
    if |s| == 0 then 0 else 16 * HexValue(s[..|s| - 1]) + DigitValue(s[|s| - 1])
  }

  /** Python's `'%x' % n` for `n >= 0`: the shortest lower-case hexadecimal numeral. */
  function HexNumeral(n: nat): (r: string)
    ensures 1 <= |r|
    ensures AllLowerHex(r) && AllHex(r)
    ensures HexValue(r) == n
    ensures |r| > 1 ==> r[0] != '0'
    ensures n < 16 <==> |r| == 1
    ensures 16 <= n < 256 ==> |r| == 2
    decreases n
  {
    if n < 16 then
      var r := [HexDigit(n)];
      assert r[..0] == "";
      r
    else
      var hi := HexNumeral(n / 16);
      var r := hi + [HexDigit(n % 16)];
      assert r[..|r| - 1] == hi;
      r
  }

  /** The value of two hexadecimal digits, the first one the more significant. */
  function PairValue(hi: char, lo: char): (n: nat)
    requires IsHexDigit(hi) && IsHexDigit(lo)
    ensures IsByte(n)
  {
    16 * DigitValue(hi) + DigitValue(lo)
  }

  /** Python's `'%02x' % n`: a zero-padded numeral of at least two characters; a negative
      value prints as `-` followed by the numeral of its magnitude. */
  function Format02x(n: int): (r: string)
    ensures |r| >= 2
    ensures n >= 0 ==> AllLowerHex(r) && AllHex(r) && HexValue(r) == n
    ensures n >= 0 && |r| > 2 ==> r[0] != '0'
    ensures 0 <= n < 256 ==> |r| == 2 && PairValue(r[0], r[1]) == n
    ensures n < 0 ==> r[0] == '-' && AllHex(r[1..]) && HexValue(r[1..]) == -n
  {
    if n < 0 then
      var r := "-" + HexNumeral(-n);
      assert r[1..] == HexNumeral(-n);
      r
    else
      var h := HexNumeral(n);
      if |h| < 2 then
        var r := "0" + h;
        assert r[..1] == "0" && r[..0] == "";
        assert h == [HexDigit(n)];
        r
      else
        assert n < 256 ==> h == [HexDigit(n / 16), HexDigit(n % 16)];
        h
  }

  /** `rgb_to_hex`: `'#%02x%02x%02x' % rgb`. For a byte triple this is `#` and six
      lower-case digits, two per component, high digit first, in red, green, blue order. */
  function RgbToHex(c: Rgb): (s: string)
    ensures |s| >= 7 && s[0] == '#'
    ensures IsByteColor(c) ==>
              && |s| == 7
              && (forall i :: 1 <= i < 7 ==> IsLowerHexDigit(s[i]))
              && PairValue(s[1], s[2]) == c.red
              && PairValue(s[3], s[4]) == c.green
              && PairValue(s[5], s[6]) == c.blue
  {
    "#" + Format02x(c.red) + Format02x(c.green) + Format02x(c.blue)
  }

  /** Python's `int(t, 16)` on a string of at most two characters (every slice
      `hex_to_rgb` takes has at most two); `None` where Python raises `ValueError`.
      Besides plain digits Python accepts a sign or surrounding whitespace. */
  function ParseHex(t: string): (r: Option<int>)
    requires |t| <= 2
    ensures |t| == 2 && IsHexDigit(t[0]) && IsHexDigit(t[1]) ==> r == Some(PairValue(t[0], t[1]))
    ensures |t| == 1 && IsHexDigit(t[0]) ==> r == Some(DigitValue(t[0]))
    ensures |t| == 0 ==> r == None
    ensures |t| == 1 ==> (r.Some? <==> IsHexDigit(t[0]))
    ensures |t| == 2 && (t[0] == '+' || IsPySpace(t[0])) && IsHexDigit(t[1]) ==> r == Some(DigitValue(t[1]))
    ensures |t| == 2 && t[0] == '-' && IsHexDigit(t[1]) ==> r == Some(0 - DigitValue(t[1]))
    ensures |t| == 2 && IsHexDigit(t[0]) && IsPySpace(t[1]) ==> r == Some(DigitValue(t[0]))
    ensures r.Some? && |t| == 2 && !IsHexDigit(t[0]) ==>
              (t[0] == '+' || t[0] == '-' || IsPySpace(t[0])) && IsHexDigit(t[1])
    ensures r.Some? && |t| == 2 && !IsHexDigit(t[1]) ==> IsPySpace(t[1]) && IsHexDigit(t[0])
    ensures (exists i :: 0 <= i < |t| && IsForeign(t[i])) ==> r == None
    ensures r.Some? ==> exists i :: 0 <= i < |t| && IsHexDigit(t[i])
    ensures r.Some? ==> -15 <= r.value <= 255
    ensures r.Some? && r.value < 0 ==> t[0] == '-'
  {
    if |t| == 0 then None
    else if |t| == 1 then
      if IsHexDigit(t[0]) then Some(DigitValue(t[0])) else None
    else if IsHexDigit(t[0]) && IsHexDigit(t[1]) then Some(PairValue(t[0], t[1]))
    else if IsHexDigit(t[1]) && (t[0] == '+' || IsPySpace(t[0])) then Some(DigitValue(t[1]))
    else if IsHexDigit(t[1]) && t[0] == '-' then Some(0 - DigitValue(t[1]))
    else if IsHexDigit(t[0]) && IsPySpace(t[1]) then Some(DigitValue(t[0]))
    else None
  }

  /** The decoding `hex_to_rgb` applies once the leading `#` characters are gone:
      parse `h[0:2]`, `h[2:4]` and `h[4:6]`, failing if any of them fails. */
  function DecodeDigits(h: string): (r: Option<Rgb>)
    ensures |h| >= 6 && AllHex(h[..6]) ==>
              r == Some(Rgb(PairValue(h[0], h[1]), PairValue(h[2], h[3]), PairValue(h[4], h[5])))
    ensures r.Some? ==> |h| >= 5
  {
    assert |h| >= 6 && AllHex(h[..6]) ==> IsHexDigit(h[..6][5]);
    match (ParseHex(Slice(h, 0, 2)), ParseHex(Slice(h, 2, 4)), ParseHex(Slice(h, 4, 6)))
    case (Some(red), Some(green), Some(blue)) => Some(Rgb(red, green, blue))
    case _ => None
  }

  /** `hex_to_rgb`: strip every leading `#`, then decode the digits. */
  function HexToRgb(s: string): (r: Option<Rgb>)
    ensures var h := LStrip(s, '#');
            |h| >= 6 && AllHex(h[..6]) ==> r.Some? && IsByteColor(r.value)
    ensures |LStrip(s, '#')| <= 4 ==> r == None
  {
    DecodeDigits(LStrip(s, '#'))
  }

  /** One leading `#` more or less makes no difference to `lstrip('#')`. */
  lemma LStripHash(x: string)
    ensures LStrip("#" + x, '#') == LStrip(x, '#')
  {
    assert ("#" + x)[1..] == x;
  }

  /** `lstrip('#')` removes any number of leading `#`. */
  lemma {:induction false} LStripHashes(n: nat, s: string)
    ensures LStrip(Repeat('#', n) + s, '#') == LStrip(s, '#')
    decreases n
  {
    if n > 0 {
      LStripHashes(n - 1, s);
      assert Repeat('#', n) + s == "#" + (Repeat('#', n - 1) + s);
      LStripHash(Repeat('#', n - 1) + s);
    } else {
      assert Repeat('#', n) + s == s;
    }
  }

  /** However many `#` precede it, a colour string decodes the same; in particular
      `hex_to_rgb` gives the same result with or without the leading `#`. */
  lemma HexToRgbIgnoresHashes(n: nat, s: string)
    ensures HexToRgb(Repeat('#', n) + s) == HexToRgb(s)
  {
    LStripHashes(n, s);
  }

  /** A character that is neither a digit, a sign nor whitespace in any of the six digit
      positions makes `hex_to_rgb` raise, wherever it sits in its pair. */
  lemma HexToRgbRejectsForeign(s: string, i: nat)
    requires i < 6 && i < |LStrip(s, '#')| && IsForeign(LStrip(s, '#')[i])
    ensures HexToRgb(s) == None
  {
    var h := LStrip(s, '#');
    if i < 2 {
      SliceHoldsForeign(h, 0, i);
    } else if i < 4 {
      SliceHoldsForeign(h, 2, i);
    } else {
      SliceHoldsForeign(h, 4, i);
    }
  }

  /** The file separator 0x1c before a colour is not whitespace to `int()`, so
      `hex_to_rgb` raises on it. */
  lemma SeparatorIsForeign()
    ensures HexToRgb(['\U{1c}'] + "abcdef") == None
  {
    var s := ['\U{1c}'] + "abcdef";
    assert LStrip(s, '#') == s;
    HexToRgbRejectsForeign(s, 0);
  }

  /** The pair slice `h[p:p+2]` that covers a foreign character does not parse. */
  lemma SliceHoldsForeign(h: string, p: nat, i: nat)
    requires p <= i < p + 2 && i < |h| && IsForeign(h[i])
    ensures ParseHex(Slice(h, p, p + 2)) == None
  {
    var t := Slice(h, p, p + 2);
    assert t[i - p] == h[i];
  }

  /** Characters after the sixth one are ignored. */
  lemma HexToRgbIgnoresTail(d: string, t: string)
    requires |d| == 6 && d[0] != '#'
    ensures HexToRgb(d + t) == HexToRgb(d)
  {
    var s := d + t;
    assert LStrip(s, '#') == s;
    assert LStrip(d, '#') == d;
    assert Slice(s, 0, 2) == Slice(d, 0, 2);
    assert Slice(s, 2, 4) == Slice(d, 2, 4);
    assert Slice(s, 4, 6) == Slice(d, 4, 6);
  }

  /** Round trip: decoding the `#rrggbb` of a byte triple gives the triple back. */
  lemma HexRoundTrip(c: Rgb)
    requires IsByteColor(c)
    ensures HexToRgb(RgbToHex(c)) == Some(c)
  {
    var s := RgbToHex(c);
    var h := s[1..];
    assert IsHexDigit(h[0]);
    assert LStrip(s, '#') == LStrip(h, '#') == h;
    assert AllHex(h[..6]) by {
      assert h[..6] == h;
    }
  }

  /** Printing the value of two hexadecimal digits gives the same digits in lower case. */
  lemma FormatPair(hi: char, lo: char)
    requires IsHexDigit(hi) && IsHexDigit(lo)
    ensures Format02x(PairValue(hi, lo)) == [LowerDigit(hi), LowerDigit(lo)]
  {
    var n := PairValue(hi, lo);
    var r := Format02x(n);
    assert |r| == 2 && PairValue(r[0], r[1]) == n;
    assert DigitValue(r[0]) == DigitValue(hi) && DigitValue(r[1]) == DigitValue(lo);
    LowerDigitUnique(r[0], hi);
    LowerDigitUnique(r[1], lo);
  }

  /** A lower-case digit is determined by its value. */
  lemma LowerDigitUnique(l: char, c: char)
    requires IsLowerHexDigit(l) && IsHexDigit(c) && DigitValue(l) == DigitValue(c)
    ensures l == LowerDigit(c)
  {
  }

  /** Reverse round trip: a well-formed `#rrggbb` decodes to a triple that prints back
      as the same string with its hexadecimal letters in lower case. */
  lemma HexReverseRoundTrip(d: string)
    requires |d| == 6 && AllHex(d)
    ensures HexToRgb("#" + d).Some?
    ensures RgbToHex(HexToRgb("#" + d).value) == "#" + LowerHex(d)
  {
    DecodeSixDigits(d);
    EncodePairs(d);
  }

  /** Printing the values of three digit pairs gives the digits back in lower case. */
  lemma EncodePairs(d: string)
    requires |d| == 6 && AllHex(d)
    ensures RgbToHex(Rgb(PairValue(d[0], d[1]), PairValue(d[2], d[3]), PairValue(d[4], d[5])))
            == "#" + LowerHex(d)
  {
    var c := Rgb(PairValue(d[0], d[1]), PairValue(d[2], d[3]), PairValue(d[4], d[5]));
    var l := LowerHex(d);
    FormatPair(d[0], d[1]);
    FormatPair(d[2], d[3]);
    FormatPair(d[4], d[5]);
    JoinPairs(l, Format02x(c.red), Format02x(c.green), Format02x(c.blue));
    assert RgbToHex(c) == "#" + (Format02x(c.red) + Format02x(c.green) + Format02x(c.blue));
  }

  /** Six characters are the concatenation of their three pairs. */
  lemma JoinPairs(l: string, a: string, b: string, e: string)
    requires |l| == 6 && a == [l[0], l[1]] && b == [l[2], l[3]] && e == [l[4], l[5]]
    ensures a + b + e == l
  {
  }

  /** `#` followed by six hexadecimal digits decodes to the values of its three digit pairs. */
  lemma DecodeSixDigits(d: string)
    requires |d| == 6 && AllHex(d)
    ensures HexToRgb("#" + d) == Some(Rgb(PairValue(d[0], d[1]), PairValue(d[2], d[3]), PairValue(d[4], d[5])))
  {
    LStripHash(d);
    assert LStrip(d, '#') == d;
    assert d[..6] == d;
  }
}

=== FILE: meshing_enums.dfy ===
/**
 The meshing option enumerations. In the add-on each option is a class of string constants
 with a static `get_enum` that maps a command-line argument to one constant, falling back
 to a fixed default for every unrecognised argument. Here each class is a datatype, `Value`
 gives the constant string the add-on stores, `Keyword` the argument that selects a
 constant, and `Parse` is `get_enum`.
 */
module MeshingEnums {

  /** `f` maps distinct constants to distinct strings. */
  ghost predicate Injective<T(!new)>(f: T -> string)
  {
    forall a, b :: f(a) == f(b) ==> a == b
  }

  // ---------------------------------------------------------------- Meshing.Technique

  datatype Technique = PiecewiseWatertight | Union | Skinning | MetaObjects

  function TechniqueValue(t: Technique): string
  {
    match t
    case PiecewiseWatertight => "MESHING_TECHNIQUE_PIECEWISE_WATERTIGHT"
    case Union => "MESHING_TECHNIQUE_UNION"
    case Skinning => "MESHING_TECHNIQUE_SKINNING"
    case MetaObjects => "MESHING_TECHNIQUE_META_OBJECTS"
  }

  function TechniqueKeyword(t: Technique): string
  {
    match t
    case PiecewiseWatertight => "piecewise-watertight"
    case Union => "union"
    case Skinning => "skinning"
    case MetaObjects => "meta-balls"
  }

  /** `Meshing.Technique.get_enum`: exact, case-sensitive keywords; anything else is the
      piecewise-watertight default. */
  function ParseTechnique(arg: string): (t: Technique)
    ensures t == Union <==> arg == "union"
    ensures t == Skinning <==> arg == "skinning"
    ensures t == MetaObjects <==> arg == "meta-balls"
    ensures t == PiecewiseWatertight <==> arg != "union" && arg != "skinning" && arg != "meta-balls"
  {
    if arg == "piecewise-watertight" then PiecewiseWatertight
    else if arg == "union" then Union
    else if arg == "skinning" then Skinning
    else if arg == "meta-balls" then MetaObjects
    else PiecewiseWatertight
  }

  // ---------------------------------------------------------------- Meshing.PiecewiseFilling

  datatype PiecewiseFilling = Paths | Sections

  function PiecewiseFillingValue(f: PiecewiseFilling): string
  {
    match f
    case Paths => "PIECEWISE_FILLING_PATHS"
    case Sections => "PIECEWISE_FILLING_SECTIONS"
  }

  function PiecewiseFillingKeyword(f: PiecewiseFilling): string
  {
    match f
    case Paths => "paths"
    case Sections => "sections"
  }

  /** `Meshing.PiecewiseFilling.get_enum`: only `sections` selects sections. */
  function ParsePiecewiseFilling(arg: string): (f: PiecewiseFilling)
    ensures f == Sections <==> arg == "sections"
  {
    if arg == "paths" then Paths
    else if arg == "sections" then Sections
    else Paths
  }

  // ---------------------------------------------------------------- Meshing.SomaConnection

  datatype SomaConnection = SomaConnected | SomaDisconnected

  function SomaConnectionValue(c: SomaConnection): string
  {
    match c
    case SomaConnected => "SOMA_CONNECTED_TO_ARBORS"
    case SomaDisconnected => "SOMA_DISCONNECTED_FROM_ARBORS"
  }

  function SomaConnectionKeyword(c: SomaConnection): string
  {
    match c
    case SomaConnected => "connected"
    case SomaDisconnected => "disconnected"
  }

  /** `Meshing.SomaConnection.get_enum`: only `connected` connects the soma. */
  function ParseSomaConnection(arg: string): (c: SomaConnection)
    ensures c == SomaConnected <==> arg == "connected"
  {
    if arg == "connected" then SomaConnected
    else if arg == "disconnected" then SomaDisconnected
    else SomaDisconnected
  }

  // ---------------------------------------------------------------- Meshing.ObjectsConnection

  datatype ObjectsConnection = ObjectsConnected | ObjectsDisconnected

  function ObjectsConnectionValue(c: ObjectsConnection): string
  {
    match c
    case ObjectsConnected => "CONNECTED_OBJECTS"
    case ObjectsDisconnected => "DISCONNECTED_OBJECTS"
  }

  function ObjectsConnectionKeyword(c: ObjectsConnection): string
  {
    match c
    case ObjectsConnected => "connected"
    case ObjectsDisconnected => "disconnected"
  }

  /** `Meshing.ObjectsConnection.get_enum`: only `connected` joins the objects. */
  function ParseObjectsConnection(arg: string): (c: ObjectsConnection)
    ensures c == ObjectsConnected <==> arg == "connected"
  {
    if arg == "connected" then ObjectsConnected
    else if arg == "disconnected" then ObjectsDisconnected
    else ObjectsDisconnected
  }

  // ---------------------------------------------------------------- Meshing.Edges

  datatype Edges = SmoothEdges | HardEdges

  function EdgesValue(e: Edges): string
  {
    match e
    case SmoothEdges => "ARBORS_SMOOTH_EDGES"
    case HardEdges => "ARBORS_HARD_EDGES"
  }

  function EdgesKeyword(e: Edges): string
  {
    match e
    case SmoothEdges => "smooth"
    case HardEdges => "hard"
  }

  /** `Meshing.Edges.get_enum`: only `smooth` gives smooth edges. */
  function ParseEdges(arg: string): (e: Edges)
    ensures e == SmoothEdges <==> arg == "smooth"
  {
    if arg == "smooth" then SmoothEdges
    else if arg == "hard" then HardEdges
    else HardEdges
  }

  // ---------------------------------------------------------------- Meshing.Surface

  datatype Surface = SmoothSurface | RoughSurface

  function SurfaceValue(s: Surface): string
  {
    match s
    case SmoothSurface => "SURFACE_SMOOTH"
    case RoughSurface => "SURFACE_ROUGH"
  }

  function SurfaceKeyword(s: Surface): string
  {
    match s
    case SmoothSurface => "smooth"
    case RoughSurface => "rough"
  }

  /** `Meshing.Surface.get_enum`: only `rough` gives a rough surface. */
  function ParseSurface(arg: string): (s: Surface)
    ensures s == RoughSurface <==> arg == "rough"
  {
    if arg == "rough" then RoughSurface
    else if arg == "smooth" then SmoothSurface
    else SmoothSurface
  }

  // ---------------------------------------------------------------- Meshing.UnionMeshing

  datatype UnionMeshing = QuadSkeleton | CircularSkeleton

  function UnionMeshingValue(u: UnionMeshing): string
  {
    match u
    case QuadSkeleton => "UNION_QUAD_SKELETON"
    case CircularSkeleton => "UNION_CIRCULAR_SKELETON"
  }

  // ---------------------------------------------------------------- Meshing.Spines.Source

  datatype SpinesSource = IgnoreSpines | RandomSpines | CircuitSpines

  function SpinesSourceValue(s: SpinesSource): string
  {
    match s
    case IgnoreSpines => "IGNORE_SPINES"
    case RandomSpines => "RANDOM_SPINES"
    case CircuitSpines => "CIRCUIT_SPINES"
  }

  function SpinesSourceKeyword(s: SpinesSource): string
  {
    match s
    case IgnoreSpines => "ignore"
    case RandomSpines => "random"
    case CircuitSpines => "circuit"
  }

  /** `Meshing.Spines.Source.get_enum`: `random` and `circuit` are recognised, everything
      else ignores the spines. */
  function ParseSpinesSource(arg: string): (s: SpinesSource)
    ensures s == RandomSpines <==> arg == "random"
    ensures s == CircuitSpines <==> arg == "circuit"
    ensures s == IgnoreSpines <==> arg != "random" && arg != "circuit"
  {
    if arg == "random" then RandomSpines
    else if arg == "circuit" then CircuitSpines
    else IgnoreSpines
  }

  // ---------------------------------------------------------------- Meshing.Spines.Quality

  datatype SpinesQuality = SpinesHQ | SpinesLQ

  function SpinesQualityValue(q: SpinesQuality): string
  {
    match q
    case SpinesHQ => "SPINES_HQ"
    case SpinesLQ => "SPINES_LQ"
  }

  function SpinesQualityKeyword(q: SpinesQuality): string
  {
    match q
    case SpinesHQ => "hq"
    case SpinesLQ => "lq"
  }

  /** `Meshing.Spines.Quality.get_enum`: only `hq` gives high quality. */
  function ParseSpinesQuality(arg: string): (q: SpinesQuality)
    ensures q == SpinesHQ <==> arg == "hq"
  {
    if arg == "hq" then SpinesHQ else SpinesLQ
  }

  // ---------------------------------------------------------------- Meshing.Nucleus

  datatype Nucleus = IgnoreNucleus | IntegratedNucleus

  function NucleusValue(n: Nucleus): string
  {
    match n
    case IgnoreNucleus => "IGNORE_NUCLEUS"
    case IntegratedNucleus => "INTEGRATED_NUCLEUS"
  }

  datatype NucleusQuality = NucleusHQ | NucleusLQ

  function NucleusQualityValue(q: NucleusQuality): string
  {
    match q
    case NucleusHQ => "NUCLEUS_HQ"
    case NucleusLQ => "NUCLEUS_LQ"
  }

  function NucleusQualityKeyword(q: NucleusQuality): string
  {
    match q
    case NucleusHQ => "hq"
    case NucleusLQ => "lq"
  }

  /** `Meshing.Nucleus.Quality.get_enum`: only `hq` gives high quality. */
  function ParseNucleusQuality(arg: string): (q: NucleusQuality)
    ensures q == NucleusHQ <==> arg == "hq"
  {
    if arg == "hq" then NucleusHQ else NucleusLQ
  }

  // ---------------------------------------------------------------- Meshing.ExportFormat

  datatype ExportFormat = Ply | Stl | Obj | Off | Blend

  function ExportFormatValue(f: ExportFormat): string
  {
    match f
    case Ply => "EXPORT_FORMAT_PLY"
    case Stl => "EXPORT_FORMAT_STL"
    case Obj => "EXPORT_FORMAT_OBJ"
    case Off => "EXPORT_FORMAT_OFF"
    case Blend => "EXPORT_FORMAT_BLEND"
  }

  // ---------------------------------------------------------------- properties

  /** Every constant's keyword parses back to that constant. */
  lemma KeywordsParseBack(t: Technique, f: PiecewiseFilling, sc: SomaConnection,
                          oc: ObjectsConnection, e: Edges, s: Surface, src: SpinesSource,
                          sq: SpinesQuality, nq: NucleusQuality)
    ensures ParseTechnique(TechniqueKeyword(t)) == t
    ensures ParsePiecewiseFilling(PiecewiseFillingKeyword(f)) == f
    ensures ParseSomaConnection(SomaConnectionKeyword(sc)) == sc
    ensures ParseObjectsConnection(ObjectsConnectionKeyword(oc)) == oc
    ensures ParseEdges(EdgesKeyword(e)) == e
    ensures ParseSurface(SurfaceKeyword(s)) == s
    ensures ParseSpinesSource(SpinesSourceKeyword(src)) == src
    ensures ParseSpinesQuality(SpinesQualityKeyword(sq)) == sq
    ensures ParseNucleusQuality(NucleusQualityKeyword(nq)) == nq
  {
  }

  /** A constant other than its class's default is reached from exactly one argument: its
      keyword. */
  lemma NonDefaultHasOnePreimage(arg: string)
    ensures ParseTechnique(arg) != PiecewiseWatertight ==> arg == TechniqueKeyword(ParseTechnique(arg))
    ensures ParsePiecewiseFilling(arg) != Paths ==> arg == PiecewiseFillingKeyword(ParsePiecewiseFilling(arg))
    ensures ParseSomaConnection(arg) != SomaDisconnected ==> arg == SomaConnectionKeyword(ParseSomaConnection(arg))
    ensures ParseObjectsConnection(arg) != ObjectsDisconnected ==> arg == ObjectsConnectionKeyword(ParseObjectsConnection(arg))
    ensures ParseEdges(arg) != HardEdges ==> arg == EdgesKeyword(ParseEdges(arg))
    ensures ParseSurface(arg) != SmoothSurface ==> arg == SurfaceKeyword(ParseSurface(arg))
    ensures ParseSpinesSource(arg) != IgnoreSpines ==> arg == SpinesSourceKeyword(ParseSpinesSource(arg))
    ensures ParseSpinesQuality(arg) != SpinesLQ ==> arg == SpinesQualityKeyword(ParseSpinesQuality(arg))
    ensures ParseNucleusQuality(arg) != NucleusLQ ==> arg == NucleusQualityKeyword(ParseNucleusQuality(arg))
  {
  }

  /** Within each class the constant strings are pairwise distinct. */
  lemma ValuesAreDistinct()
    ensures Injective(TechniqueValue)
    ensures Injective(PiecewiseFillingValue)
    ensures Injective(SomaConnectionValue)
    ensures Injective(ObjectsConnectionValue)
    ensures Injective(EdgesValue)
    ensures Injective(SurfaceValue)
    ensures Injective(UnionMeshingValue)
    ensures Injective(SpinesSourceValue)
    ensures Injective(SpinesQualityValue)
    ensures Injective(NucleusValue)
    ensures Injective(NucleusQualityValue)
    ensures Injective(ExportFormatValue)
  {
  }
}

=== FILE: piecewise_builder.dfy ===
/**
 The decisions of the piecewise-watertight mesh builder.

 `reconstruct_arbors_meshes` picks a plan from the edges option: hard edges use a 16-sided
 bevel, closed caps and a final pass that closes the open faces of every arbor mesh; smooth
 edges use a 4-sided bevel, open caps and a level-2 smoothing pass. Either plan draws the
 three arbor groups (apical dendrites, basal dendrites, axons) through `build_arbors`, which
 records the first drawn object of every arbor and appends the drawn objects to the group's
 list, and ends by deleting the bevel.

 Every call into the host (bevel creation, drawing an arbor, converting to a mesh, the
 post-processing pass, deleting the bevel, the error log) is recorded as a `HostCall`; the
 objects the host creates are opaque identifiers, and drawing an arbor is a function
 parameter that returns the objects it created.
 */
module PiecewiseBuilder {
  import opened Results
  import opened PyStr
  import opened MeshingEnums

  /** An object the host created (a tube, later a mesh). */
  type MeshId = nat

  datatype Group = Apical | Basal | Axon

  /** The soma representation; only `SOFT_BODY` matters to the builder. */
  datatype SomaRepresentation = SoftBody | OtherRepresentation

  /** How the root of an arbor is joined: to the soma surface or extended to the origin. */
  datatype Roots = ConnectedToSoma | ConnectedToOrigin

  /** The options the builder reads. `edges` and `somaConnection` hold the stored constant
      strings, so that a value outside the enum can be represented. */
  datatype Options = Options(
    edges: string,
    somaType: SomaRepresentation,
    somaConnection: string,
    ignoreApical: bool, ignoreBasal: bool, ignoreAxons: bool,
    apicalOrder: int, basalOrder: int, axonOrder: int)

  /** An arbor of the morphology and the reference to its mesh, if one was built. */
  datatype Arbor = Arbor(name: string, mesh: Option<MeshId>)

  datatype Morphology = Morphology(apical: seq<Arbor>, basal: seq<Arbor>, axons: seq<Arbor>)

  /** The builder's state: the morphology and the list of meshes of each group. */
  datatype Builder = Builder(
    morphology: Morphology, options: Options,
    apicalMeshes: seq<MeshId>, basalMeshes: seq<MeshId>, axonMeshes: seq<MeshId>)

  /** The pass run over every arbor mesh after drawing. */
  datatype PostOp = CloseFaces | Smooth(level: nat)

  /** The arbor-building plan: bevel sides, caps, roots mode and post-processing pass. */
  datatype Plan = Plan(bevelSides: nat, caps: bool, roots: Roots, post: PostOp)

  datatype HostCall =
    | CreateBevel(sides: nat)
    | DrawArbor(group: Group, arbor: nat, maxOrder: int, caps: bool, roots: Roots)
    | ConvertToMesh(obj: MeshId)
    | CloseOpenFaces(obj: MeshId)
    | SmoothVertices(obj: MeshId, level: nat)
    | DeleteBevel
    | LogError

  /** Drawing arbor `i` of a group with a branch-order limit, caps flag and roots mode
      yields the objects the host created for it, in creation order. */
  type Draw = (Group, nat, int, bool, Roots) -> seq<MeshId>

  // ---------------------------------------------------------------- plans

  /** The roots mode of the hard-edges plan. */
  function HardRoots(o: Options): (r: Roots)
    ensures r == ConnectedToSoma <==>
              o.somaType == SoftBody && o.somaConnection == SomaConnectionValue(SomaConnected)
  {
    if o.somaType == SoftBody then
      if o.somaConnection == SomaConnectionValue(SomaConnected) then ConnectedToSoma
      else ConnectedToOrigin
    else ConnectedToOrigin
  }

  /** The roots mode of the soft-edges plan. */
  function SoftRoots(o: Options): (r: Roots)
    ensures r == ConnectedToSoma <==> o.somaConnection == SomaConnectionValue(SomaConnected)
  {
    if o.somaConnection == SomaConnectionValue(SomaConnected) then ConnectedToSoma
    else ConnectedToOrigin
  }

  function HardEdgesPlan(o: Options): (p: Plan)
    ensures p.bevelSides == 16 && p.caps && p.post == CloseFaces
    ensures p.roots == ConnectedToSoma <==>
              o.somaType == SoftBody && o.somaConnection == SomaConnectionValue(SomaConnected)
  {
    Plan(16, true, HardRoots(o), CloseFaces)
  }

  function SoftEdgesPlan(o: Options): (p: Plan)
    ensures p.bevelSides == 4 && !p.caps && p.post == Smooth(2)
    ensures p.roots == ConnectedToSoma <==> o.somaConnection == SomaConnectionValue(SomaConnected)
  {
    Plan(4, false, SoftRoots(o), Smooth(2))
  }

  /** The soft-edges plan does not look at the soma representation. */
  lemma SoftPlanIgnoresSomaType(o: Options, t: SomaRepresentation)
    ensures SoftEdgesPlan(o.(somaType := t)) == SoftEdgesPlan(o)
  {
  }

  /** The plan `reconstruct_arbors_meshes` runs, or `None` for an edges value that is
      neither constant (the error branch). */
  function ArborPlan(o: Options): (r: Option<Plan>)
    ensures r.Some? <==> o.edges == EdgesValue(HardEdges) || o.edges == EdgesValue(SmoothEdges)
    ensures o.edges == EdgesValue(HardEdges) ==> r == Some(HardEdgesPlan(o))
    ensures o.edges == EdgesValue(SmoothEdges) ==> r == Some(SoftEdgesPlan(o))
  {
    if o.edges == EdgesValue(HardEdges) then Some(HardEdgesPlan(o))
    else if o.edges == EdgesValue(SmoothEdges) then Some(SoftEdgesPlan(o))
    else None
  }

  /** An edges option produced by the parser always selects a plan, and the plan has a
      16-sided bevel exactly when the argument was not `smooth`. */
  lemma ParsedEdgesHavePlan(o: Options, arg: string)
    requires o.edges == EdgesValue(ParseEdges(arg))
    ensures ArborPlan(o).Some?
    ensures ArborPlan(o).value.bevelSides == 16 <==> arg != EdgesKeyword(SmoothEdges)
  {
    assert EdgesValue(HardEdges) != EdgesValue(SmoothEdges);
  }

  // ---------------------------------------------------------------- one arbor group

  function Arbors(m: Morphology, g: Group): seq<Arbor>
  {
    match g
    case Apical => m.apical
    case Basal => m.basal
    case Axon => m.axons
  }

  function Ignored(o: Options, g: Group): bool
  {
    match g
    case Apical => o.ignoreApical
    case Basal => o.ignoreBasal
    case Axon => o.ignoreAxons
  }

  function BranchOrder(o: Options, g: Group): int
  {
    match g
    case Apical => o.apicalOrder
    case Basal => o.basalOrder
    case Axon => o.axonOrder
  }

  function Meshes(b: Builder, g: Group): seq<MeshId>
  {
    match g
    case Apical => b.apicalMeshes
    case Basal => b.basalMeshes
    case Axon => b.axonMeshes
  }

  /** A group is drawn when it is not ignored and the morphology has arbors of that type. */
  predicate Active(b: Builder, g: Group)
  {
    !Ignored(b.options, g) && |Arbors(b.morphology, g)| > 0
  }

  /** The object lists drawn for the `n` arbors of group `g`, in arbor order. */
  function Drawn(draw: Draw, g: Group, n: nat, order: int, caps: bool, roots: Roots)
    : (r: seq<seq<MeshId>>)
    ensures |r| == n && forall i :: 0 <= i < n ==> r[i] == draw(g, i, order, caps, roots)
  {
    seq(n, i requires 0 <= i < n => draw(g, i, order, caps, roots))
  }

  /** One conversion call per object, in order. */
  function Converts(objs: seq<MeshId>): (r: seq<HostCall>)
    ensures |r| == |objs| && forall j :: 0 <= j < |objs| ==> r[j] == ConvertToMesh(objs[j])
  {
    seq(|objs|, j requires 0 <= j < |objs| => ConvertToMesh(objs[j]))
  }

  /** The calls made for arbor `i`: the draw, then one conversion per object it created. */
  function ArborCalls(g: Group, i: nat, order: int, caps: bool, roots: Roots, objs: seq<MeshId>)
    : seq<HostCall>
  {
    [DrawArbor(g, i, order, caps, roots)] + Converts(objs)
  }

  /** The calls made for the first `n` arbors of a group. */
  function GroupCalls(g: Group, order: int, caps: bool, roots: Roots, drawn: seq<seq<MeshId>>, n: nat)
    : seq<HostCall>
    requires n <= |drawn|
  {
    if n == 0 then [] else GroupCalls(g, order, caps, roots, drawn, n - 1)
                           + ArborCalls(g, n - 1, order, caps, roots, drawn[n - 1])
  }

  /** Every call is a draw of group `g` with these settings, or a conversion. */
  predicate GroupCallsOnly(calls: seq<HostCall>, g: Group, order: int, caps: bool, roots: Roots)
  {
    forall k :: 0 <= k < |calls| ==>
      calls[k].ConvertToMesh? || (calls[k].DrawArbor? && calls[k] == DrawArbor(g, calls[k].arbor, order, caps, roots))
  }

  /** The arbor loop of `build_arbors` for one group: draw every arbor; when the drawn list
      is non-empty, record its first object as the arbor's mesh, append the whole list to the
      group's meshes and convert each object. */
  method BuildGroup(arbors: seq<Arbor>, g: Group, order: int, caps: bool, roots: Roots, draw: Draw)
    returns (updated: seq<Arbor>, added: seq<MeshId>, calls: seq<HostCall>)
    ensures |updated| == |arbors|
    ensures forall i :: 0 <= i < |arbors| ==>
              var objs := draw(g, i, order, caps, roots);
              updated[i] == if |objs| > 0 then arbors[i].(mesh := Some(objs[0])) else arbors[i]
    ensures added == Flatten(Drawn(draw, g, |arbors|, order, caps, roots))
    ensures calls == GroupCalls(g, order, caps, roots, Drawn(draw, g, |arbors|, order, caps, roots), |arbors|)
    ensures GroupCallsOnly(calls, g, order, caps, roots)
  {
    ghost var drawn := Drawn(draw, g, |arbors|, order, caps, roots);
    updated := [];
    added := [];
    calls := [];
    var i := 0;
    while i < |arbors|
      invariant 0 <= i <= |arbors|
      invariant |updated| == i
      invariant forall m :: 0 <= m < i ==> updated[m] == Recorded(arbors[m], draw(g, m, order, caps, roots))
      invariant added == Flatten(drawn[..i])
      invariant calls == GroupCalls(g, order, caps, roots, drawn, i)
    {
      var objs := draw(g, i, order, caps, roots);
      var step := ArborCalls(g, i, order, caps, roots, objs);
      calls := calls + step;
      updated := updated + [Recorded(arbors[i], objs)];
      FlattenSnoc(drawn, i);
      added := added + objs;
      i := i + 1;
    }
    assert drawn[..|arbors|] == drawn;
    GroupCallsAreOnly(g, order, caps, roots, drawn, |arbors|);
    forall m | 0 <= m < |arbors|
      ensures var objs := draw(g, m, order, caps, roots);
              updated[m] == if |objs| > 0 then arbors[m].(mesh := Some(objs[0])) else arbors[m]
    {
    }
  }

  /** An arbor after its draw: its mesh is the first object drawn, if any. */
  function Recorded(arbor: Arbor, objs: seq<MeshId>): Arbor
  {
    if |objs| > 0 then arbor.(mesh := Some(objs[0])) else arbor
  }

  /** Appending the calls of one more arbor keeps the calls to draws and conversions. */
  lemma GroupCallsOnlyExtend(calls: seq<HostCall>, g: Group, i: nat, order: int, caps: bool, roots: Roots,
                             objs: seq<MeshId>)
    requires GroupCallsOnly(calls, g, order, caps, roots)
    ensures GroupCallsOnly(calls + ArborCalls(g, i, order, caps, roots, objs), g, order, caps, roots)
  {
    var all := calls + ArborCalls(g, i, order, caps, roots, objs);
    forall k | |calls| <= k < |all|
      ensures all[k].ConvertToMesh? || (all[k].DrawArbor? && all[k] == DrawArbor(g, all[k].arbor, order, caps, roots))
    {
      if k > |calls| {
        assert all[k] == Converts(objs)[k - |calls| - 1];
      }
    }
  }

  /** The calls for any number of arbors are draws of the group and conversions. */
  lemma {:induction false} GroupCallsAreOnly(g: Group, order: int, caps: bool, roots: Roots,
                                             drawn: seq<seq<MeshId>>, n: nat)
    requires n <= |drawn|
    ensures GroupCallsOnly(GroupCalls(g, order, caps, roots, drawn, n), g, order, caps, roots)
    decreases n
  {
    if n > 0 {
      GroupCallsAreOnly(g, order, caps, roots, drawn, n - 1);
      GroupCallsOnlyExtend(GroupCalls(g, order, caps, roots, drawn, n - 1), g, n - 1, order, caps, roots,
                           drawn[n - 1]);
    }
  }

  /** Flattening one more list appends that list. */
  lemma FlattenSnoc<T>(xs: seq<seq<T>>, i: nat)
    requires i < |xs|
    ensures Flatten(xs[..i + 1]) == Flatten(xs[..i]) + xs[i]
  {
    assert xs[..i + 1] == xs[..i] + [xs[i]];
    FlattenAppend(xs[..i], [xs[i]]);
    assert Flatten([xs[i]]) == xs[i];
  }

  // ---------------------------------------------------------------- build_arbors

  function WithGroup(b: Builder, g: Group, arbors: seq<Arbor>, meshes: seq<MeshId>): Builder
  {
    match g
    case Apical => b.(morphology := b.morphology.(apical := arbors), apicalMeshes := meshes)
    case Basal => b.(morphology := b.morphology.(basal := arbors), basalMeshes := meshes)
    case Axon => b.(morphology := b.morphology.(axons := arbors), axonMeshes := meshes)
  }

  /** Every draw call uses the plan's caps and roots and its own group's branch-order limit,
      and draws only groups that are active in `b`. */
  predicate DrawsFollow(calls: seq<HostCall>, b: Builder, caps: bool, roots: Roots)
  {
    forall k :: 0 <= k < |calls| && calls[k].DrawArbor? ==>
      && calls[k].caps == caps && calls[k].roots == roots
      && calls[k].maxOrder == BranchOrder(b.options, calls[k].group)
      && Active(b, calls[k].group)
  }

  /** Calls of `build_arbors`: draws and conversions only. */
  predicate ArborCallsOnly(calls: seq<HostCall>)
  {
    forall k :: 0 <= k < |calls| ==> calls[k].DrawArbor? || calls[k].ConvertToMesh?
  }

  /** What `build_arbors` promises about one group `g`, going from `b` to `b'`. */
  predicate GroupOutcome(b: Builder, b': Builder, g: Group, draw: Draw, caps: bool, roots: Roots)
  {
    var arbors := Arbors(b.morphology, g);
    var order := BranchOrder(b.options, g);
    && |Arbors(b'.morphology, g)| == |arbors|
    && (Active(b, g) ==>
          && Meshes(b', g) == Meshes(b, g) + Flatten(Drawn(draw, g, |arbors|, order, caps, roots))
          && forall i :: 0 <= i < |arbors| ==>
               var objs := draw(g, i, order, caps, roots);
               Arbors(b'.morphology, g)[i] == if |objs| > 0 then arbors[i].(mesh := Some(objs[0])) else arbors[i])
    && (!Active(b, g) ==> Meshes(b', g) == Meshes(b, g) && Arbors(b'.morphology, g) == arbors)
  }

  /** One group of `build_arbors`: skipped entirely when ignored or empty. */
  method BuildGroupIfActive(b: Builder, g: Group, caps: bool, roots: Roots, draw: Draw)
    returns (b': Builder, calls: seq<HostCall>)
    ensures b'.options == b.options
    ensures forall h :: h != g ==> Arbors(b'.morphology, h) == Arbors(b.morphology, h) && Meshes(b', h) == Meshes(b, h)
    ensures GroupOutcome(b, b', g, draw, caps, roots)
    ensures !Active(b, g) ==> calls == []
    ensures ArborCallsOnly(calls) && DrawsFollow(calls, b, caps, roots)
    ensures forall k :: 0 <= k < |calls| && calls[k].DrawArbor? ==> calls[k].group == g
  {
    if !Active(b, g) {
      return b, [];
    }
    var updated, added;
    updated, added, calls := BuildGroup(Arbors(b.morphology, g), g, BranchOrder(b.options, g), caps, roots, draw);
    b' := WithGroup(b, g, updated, Meshes(b, g) + added);
  }

  /** `build_arbors`: the apical dendrites, then the basal dendrites, then the axons. */
  method BuildArbors(b: Builder, caps: bool, roots: Roots, draw: Draw)
    returns (b': Builder, calls: seq<HostCall>)
    ensures b'.options == b.options
    ensures GroupOutcome(b, b', Apical, draw, caps, roots)
    ensures GroupOutcome(b, b', Basal, draw, caps, roots)
    ensures GroupOutcome(b, b', Axon, draw, caps, roots)
    ensures ArborCallsOnly(calls) && DrawsFollow(calls, b, caps, roots)
  {
    var b1, c1 := BuildGroupIfActive(b, Apical, caps, roots, draw);
    var b2, c2 := BuildGroupIfActive(b1, Basal, caps, roots, draw);
    var b3, c3 := BuildGroupIfActive(b2, Axon, caps, roots, draw);
    SameGroupOutcome(b, b, b1, b3, Apical, draw, caps, roots);
    SameGroupOutcome(b, b1, b2, b3, Basal, draw, caps, roots);
    SameGroupOutcome(b, b2, b3, b3, Axon, draw, caps, roots);
    b' := b3;
    SameActivity(b, b1, caps, roots, c2);
    SameActivity(b1, b2, caps, roots, c3);
    SameActivity(b, b1, caps, roots, c3);
    calls := c1 + c2 + c3;
    CallsConcat(c1, c2, c3, b, caps, roots);
  }

  /** A step that keeps the options and the number of arbors of every group keeps which groups
      are active, so draws that follow the plan for one follow it for the other. */
  lemma SameActivity(b: Builder, b1: Builder, caps: bool, roots: Roots, calls: seq<HostCall>)
    requires b1.options == b.options
    requires forall h :: |Arbors(b1.morphology, h)| == |Arbors(b.morphology, h)|
    requires DrawsFollow(calls, b1, caps, roots)
    ensures forall h :: Active(b1, h) == Active(b, h)
    ensures DrawsFollow(calls, b, caps, roots)
  {
  }

  lemma CallsConcat(c1: seq<HostCall>, c2: seq<HostCall>, c3: seq<HostCall>, b: Builder, caps: bool, roots: Roots)
    requires ArborCallsOnly(c1) && ArborCallsOnly(c2) && ArborCallsOnly(c3)
    requires DrawsFollow(c1, b, caps, roots) && DrawsFollow(c2, b, caps, roots) && DrawsFollow(c3, b, caps, roots)
    ensures ArborCallsOnly(c1 + c2 + c3) && DrawsFollow(c1 + c2 + c3, b, caps, roots)
  {
  }

  /** A group's outcome only depends on that group: steps before and after that leave the
      group alone keep it. */
  lemma SameGroupOutcome(b: Builder, before: Builder, after: Builder, b': Builder, g: Group, draw: Draw,
                         caps: bool, roots: Roots)
    requires GroupOutcome(before, after, g, draw, caps, roots)
    requires before.options == b.options
    requires Arbors(before.morphology, g) == Arbors(b.morphology, g) && Meshes(before, g) == Meshes(b, g)
    requires Arbors(b'.morphology, g) == Arbors(after.morphology, g) && Meshes(b', g) == Meshes(after, g)
    ensures GroupOutcome(b, b', g, draw, caps, roots)
  {
  }

  // ---------------------------------------------------------------- running a plan

  function PostCall(post: PostOp, obj: MeshId): HostCall
  {
    match post
    case CloseFaces => CloseOpenFaces(obj)
    case Smooth(level) => SmoothVertices(obj, level)
  }

  /** The post-processing pass over a list of meshes, in list order. */
  function PostCalls(post: PostOp, objs: seq<MeshId>): (r: seq<HostCall>)
    ensures |r| == |objs| && forall j :: 0 <= j < |objs| ==> r[j] == PostCall(post, objs[j])
  {
    seq(|objs|, j requires 0 <= j < |objs| => PostCall(post, objs[j]))
  }

  /** All arbor meshes of the builder: apical, then basal, then axon meshes. */
  function AllMeshes(b: Builder): seq<MeshId>
  {
    b.apicalMeshes + b.basalMeshes + b.axonMeshes
  }

  /** `build_hard_edges_arbors` or `build_soft_edges_arbors`, given its plan: create the bevel,
      build the arbors, run the post-processing pass over every mesh of the three lists, and
      delete the bevel last. */
  method RunPlan(b: Builder, plan: Plan, draw: Draw) returns (b': Builder, calls: seq<HostCall>)
    ensures b'.options == b.options
    ensures GroupOutcome(b, b', Apical, draw, plan.caps, plan.roots)
    ensures GroupOutcome(b, b', Basal, draw, plan.caps, plan.roots)
    ensures GroupOutcome(b, b', Axon, draw, plan.caps, plan.roots)
    ensures |calls| >= 2 + |AllMeshes(b')|
    ensures calls[0] == CreateBevel(plan.bevelSides) && calls[|calls| - 1] == DeleteBevel
    ensures forall k :: 0 < k < |calls| - 1 ==> !calls[k].CreateBevel? && !calls[k].DeleteBevel?
    ensures DrawsFollow(calls, b, plan.caps, plan.roots)
    ensures calls[|calls| - 1 - |AllMeshes(b')|..|calls| - 1] == PostCalls(plan.post, AllMeshes(b'))
  {
    var built;
    b', built := BuildArbors(b, plan.caps, plan.roots, draw);
    var post := PostCalls(plan.post, AllMeshes(b'));
    calls := [CreateBevel(plan.bevelSides)] + built + post + [DeleteBevel];
    assert calls[1..|calls| - 1] == built + post;
    assert forall k :: 0 < k < |calls| - 1 ==> calls[k] == (built + post)[k - 1];
    assert calls[|calls| - 1 - |post|..|calls| - 1] == post;
  }

  /** `reconstruct_arbors_meshes`: the hard-edges plan, the soft-edges plan, or only an error
      log entry (nothing built, nothing changed) for any other edges value. */
  method ReconstructArborsMeshes(b: Builder, draw: Draw) returns (b': Builder, calls: seq<HostCall>)
    ensures b.options.edges == EdgesValue(HardEdges) ==> |calls| > 0 && calls[0] == CreateBevel(16)
    ensures b.options.edges == EdgesValue(SmoothEdges) ==> |calls| > 0 && calls[0] == CreateBevel(4)
    ensures ArborPlan(b.options).Some? ==> |calls| >= 2 && calls[|calls| - 1] == DeleteBevel
                                            && DrawsFollow(calls, b, ArborPlan(b.options).value.caps,
                                                           ArborPlan(b.options).value.roots)
    ensures ArborPlan(b.options).Some? ==>
              && b'.options == b.options
              && GroupOutcome(b, b', Apical, draw, ArborPlan(b.options).value.caps, ArborPlan(b.options).value.roots)
              && GroupOutcome(b, b', Basal, draw, ArborPlan(b.options).value.caps, ArborPlan(b.options).value.roots)
              && GroupOutcome(b, b', Axon, draw, ArborPlan(b.options).value.caps, ArborPlan(b.options).value.roots)
              && (forall k :: 0 < k < |calls| - 1 ==> !calls[k].CreateBevel? && !calls[k].DeleteBevel?)
    ensures b.options.edges == EdgesValue(HardEdges) ==>
              |calls| >= 2 + |AllMeshes(b')|
              && calls[|calls| - 1 - |AllMeshes(b')|..|calls| - 1] == PostCalls(CloseFaces, AllMeshes(b'))
    ensures b.options.edges == EdgesValue(SmoothEdges) ==>
              |calls| >= 2 + |AllMeshes(b')|
              && calls[|calls| - 1 - |AllMeshes(b')|..|calls| - 1] == PostCalls(Smooth(2), AllMeshes(b'))
    ensures ArborPlan(b.options).None? <==> calls == [LogError]
    ensures ArborPlan(b.options).None? ==> b' == b
  {
    match ArborPlan(b.options)
    case Some(plan) =>
      b', calls := RunPlan(b, plan, draw);
    case None =>
      b', calls := b, [LogError];
  }

  // ---------------------------------------------------------------- reconstruct_mesh

  /** The stages of `reconstruct_mesh`. */
  datatype Stage =
    | Materials | SkeletonUpdate | ConnectivityCheck | Soma | ArborsStage | Connect
    | Decimate | Noise | Spines | Join | Transform | Stats

  /** An entry of the reconstruction log: a stage starting, or a host call within it. */
  datatype Event = StageStarted(stage: Stage) | Call(call: HostCall)

  function StageEvents(stages: seq<Stage>): (r: seq<Event>)
    ensures |r| == |stages| && forall j :: 0 <= j < |stages| ==> r[j] == StageStarted(stages[j])
  {
    seq(|stages|, j requires 0 <= j < |stages| => StageStarted(stages[j]))
  }

  function CallEvents(calls: seq<HostCall>): (r: seq<Event>)
    ensures |r| == |calls| && forall j :: 0 <= j < |calls| ==> r[j] == Call(calls[j])
  {
    seq(|calls|, j requires 0 <= j < |calls| => Call(calls[j]))
  }

  /** The stages that run before the arbors, and after them. */
  const StagesBeforeArbors: seq<Stage> := [Materials, SkeletonUpdate, ConnectivityCheck, Soma, ArborsStage]
  const StagesAfterArbors: seq<Stage> := [Connect, Decimate, Noise, Spines, Join, Transform, Stats]

  /** Every stage starts in the log, and none starts twice. */
  predicate RunsEveryStageOnce(log: seq<Event>)
  {
    && (forall s: Stage :: StageStarted(s) in log)
    && (forall i, j :: 0 <= i < j < |log| && log[i].StageStarted? ==> log[i] != log[j])
  }

  /** The log of the fixed stage order, whatever the arbor calls in the middle, runs every
      stage exactly once. */
  lemma EveryStageOnce(calls: seq<HostCall>)
    ensures RunsEveryStageOnce(StageEvents(StagesBeforeArbors) + CallEvents(calls) + StageEvents(StagesAfterArbors))
  {
    var all := StagesBeforeArbors + StagesAfterArbors;
    var log := StageEvents(StagesBeforeArbors) + CallEvents(calls) + StageEvents(StagesAfterArbors);
    var m := |calls|;
    assert forall p :: 0 <= p < 5 ==> log[p] == StageStarted(all[p]);
    assert forall p :: 5 <= p < 12 ==> log[p + m] == StageStarted(all[p]);
    forall s: Stage
      ensures StageStarted(s) in log
    {
      var p := StageIndex(s);
      if p < 5 {
        assert log[p] == StageStarted(s);
      } else {
        assert log[p + m] == StageStarted(s);
      }
    }
    forall i, j | 0 <= i < j < |log| && log[i].StageStarted?
      ensures log[i] != log[j]
    {
      if log[j].StageStarted? {
        var pi := if i < 5 then i else i - m;
        var pj := if j < 5 then j else j - m;
        assert log[i] == StageStarted(all[pi]);
        assert log[j] == StageStarted(all[pj]);
        StagesDistinct(pi, pj);
      }
    }
  }

  /** The position of each stage in the fixed order. */
  function StageIndex(s: Stage): (p: nat)
    ensures p < 12 && (StagesBeforeArbors + StagesAfterArbors)[p] == s
  {
    match s
    case Materials => 0 case SkeletonUpdate => 1 case ConnectivityCheck => 2 case Soma => 3
    case ArborsStage => 4 case Connect => 5 case Decimate => 6 case Noise => 7
    case Spines => 8 case Join => 9 case Transform => 10 case Stats => 11
  }

  lemma StagesDistinct(p: nat, q: nat)
    requires p < q < 12
    ensures (StagesBeforeArbors + StagesAfterArbors)[p] != (StagesBeforeArbors + StagesAfterArbors)[q]
  {
    assert StageIndex((StagesBeforeArbors + StagesAfterArbors)[p]) == p;
  }

  /** `reconstruct_mesh` as a log: the stages in their fixed order, with the host calls of
      the arbor reconstruction between the arbors stage and the connection stage. The stages
      before the arbors repair the skeleton and filter disconnected arbors through host
      helpers; `prepared` is the builder as they leave it, with the same options as `b`.
      `b'` is the builder when the arbors stage ends. */
  method ReconstructMesh(b: Builder, prepared: Builder, draw: Draw) returns (b': Builder, log: seq<Event>)
    requires prepared.options == b.options
    ensures |log| >= 12
    ensures log[..5] == StageEvents(StagesBeforeArbors)
    ensures log[|log| - 7..] == StageEvents(StagesAfterArbors)
    ensures forall k :: 5 <= k < |log| - 7 ==> log[k].Call?
    ensures ArborPlan(b.options).None? <==> log[5..|log| - 7] == [Call(LogError)]
    ensures RunsEveryStageOnce(log)
    ensures ArborPlan(b.options).Some? ==>
              && b'.options == b.options
              && GroupOutcome(prepared, b', Apical, draw, ArborPlan(b.options).value.caps, ArborPlan(b.options).value.roots)
              && GroupOutcome(prepared, b', Basal, draw, ArborPlan(b.options).value.caps, ArborPlan(b.options).value.roots)
              && GroupOutcome(prepared, b', Axon, draw, ArborPlan(b.options).value.caps, ArborPlan(b.options).value.roots)
    ensures ArborPlan(b.options).None? ==> b' == prepared
  {
    var calls;
    b', calls := ReconstructArborsMeshes(prepared, draw);
    log := StageEvents(StagesBeforeArbors) + CallEvents(calls) + StageEvents(StagesAfterArbors);
    assert log[..5] == StageEvents(StagesBeforeArbors);
    assert log[|log| - 7..] == StageEvents(StagesAfterArbors);
    assert log[5..|log| - 7] == CallEvents(calls);
    EveryStageOnce(calls);
  }
}

=== FILE: pystr.dfy ===
/**
 The few Python string operations the add-on relies on, with Python's semantics:
 `str.replace` (replace every non-overlapping occurrence, left to right), `str.lstrip`
 of one character, and slicing with out-of-range bounds clamped to the string.
 */
module PyStr {

  /** True when `pat` occurs in `s` starting at index `i`. */
  predicate MatchAt(s: string, pat: string, i: nat)
  {
    i + |pat| <= |s| && s[i..i + |pat|] == pat
  }

  /** No occurrence of `pat` in `s` starts before index `k`. */
  predicate NoMatchBefore(s: string, pat: string, k: nat)
  {
    forall i: nat :: i < k ==> !MatchAt(s, pat, i)
  }

  /** `s` contains no occurrence of `pat` at all. */
  predicate Free(s: string, pat: string)
  {
    NoMatchBefore(s, pat, |s| + 1)
  }

  /** Python's `s.replace('', rep)`: `rep` before every character and at the end. */
  function Interleave(s: string, rep: string): (r: string)
    ensures |r| == |s| + (|s| + 1) * |rep|
  {
    if |s| == 0 then rep else rep + [s[0]] + Interleave(s[1..], rep)
  }

  /** Python's `s.replace(pat, rep)`: every non-overlapping occurrence of `pat`, found
      left to right, is replaced by `rep`. */
  function ReplaceAll(s: string, pat: string, rep: string): string
    decreases |s|
  {
    if |pat| == 0 then Interleave(s, rep)
    else if |s| == 0 then ""
    else if MatchAt(s, pat, 0) then rep + ReplaceAll(s[|pat|..], pat, rep)
    else [s[0]] + ReplaceAll(s[1..], pat, rep)
  }

  lemma MatchAtShift(s: string, pat: string, i: nat)
    requires |s| > 0
    ensures MatchAt(s[1..], pat, i) <==> MatchAt(s, pat, i + 1)
  {
    if i + 1 + |pat| <= |s| {
      assert s[1..][i..i + |pat|] == s[i + 1..i + 1 + |pat|];
    }
  }

  /** Replacing a pattern that does not occur leaves the string unchanged. */
  lemma {:induction false} ReplaceAllAbsent(s: string, pat: string, rep: string)
    requires |pat| > 0
    requires Free(s, pat)
    ensures ReplaceAll(s, pat, rep) == s
    decreases |s|
  {
    if |s| > 0 {
      assert !MatchAt(s, pat, 0);
      forall i: nat | i < |s[1..]| + 1
        ensures !MatchAt(s[1..], pat, i)
      {
        MatchAtShift(s, pat, i);
      }
      ReplaceAllAbsent(s[1..], pat, rep);
    }
  }

  /** When the first occurrence of `pat` starts right after `p`, `p` is kept, that occurrence
      becomes `rep`, and replacement continues on what follows it. */
  lemma ReplaceAllFirstMatch(p: string, pat: string, q: string, rep: string)
    requires |pat| > 0
    requires NoMatchBefore(p + pat + q, pat, |p|)
    ensures ReplaceAll(p + pat + q, pat, rep) == p + rep + ReplaceAll(q, pat, rep)
  {
    assert p + pat + q == p + (pat + q);
    ReplaceAllKeepsPrefix(p, pat + q, pat, rep);
    ReplaceAllAtMatch(pat, q, rep);
  }

  /** Characters before the first occurrence are kept as they are. */
  lemma {:induction false} ReplaceAllKeepsPrefix(p: string, q: string, pat: string, rep: string)
    requires |pat| > 0
    requires NoMatchBefore(p + q, pat, |p|)
    ensures ReplaceAll(p + q, pat, rep) == p + ReplaceAll(q, pat, rep)
    decreases |p|
  {
    if |p| == 0 {
      assert p + q == q;
    } else {
      var s := p + q;
      var t := p[1..] + q;
      var r := ReplaceAll(q, pat, rep);
      assert s[1..] == t;
      NoMatchShift(s, pat, |p|);
      ReplaceAllStep(s, pat, rep);
      ReplaceAllKeepsPrefix(p[1..], q, pat, rep);
      ConsAppend(p[0], p[1..], r, p);
    }
  }

  lemma ConsAppend(c: char, a: string, r: string, whole: string)
    requires whole == [c] + a
    ensures [c] + (a + r) == whole + r
  {
  }

  /** No occurrence before `k` in `s` means none before `k - 1` in its tail. */
  lemma NoMatchShift(s: string, pat: string, k: nat)
    requires 0 < k <= |s|
    requires NoMatchBefore(s, pat, k)
    ensures !MatchAt(s, pat, 0)
    ensures NoMatchBefore(s[1..], pat, k - 1)
  {
    forall i: nat | i < k - 1
      ensures !MatchAt(s[1..], pat, i)
    {
      MatchAtShift(s, pat, i);
    }
  }

  /** An occurrence at the start is replaced, and replacement continues after it. */
  lemma ReplaceAllAtMatch(pat: string, q: string, rep: string)
    requires |pat| > 0
    ensures ReplaceAll(pat + q, pat, rep) == rep + ReplaceAll(q, pat, rep)
  {
    var s := pat + q;
    assert s[0..|pat|] == pat;
    assert s[|pat|..] == q;
  }

  /** A character that starts no occurrence is kept. */
  lemma ReplaceAllStep(s: string, pat: string, rep: string)
    requires |pat| > 0 && |s| > 0 && !MatchAt(s, pat, 0)
    ensures ReplaceAll(s, pat, rep) == [s[0]] + ReplaceAll(s[1..], pat, rep)
  {
  }

  /** The characters of `s` that are not in `drop`, in order. */
  function Drop(s: string, drop: set<char>): (r: string)
    ensures |r| <= |s|
    ensures forall i :: 0 <= i < |r| ==> r[i] !in drop
    ensures forall c :: c in r ==> c in s
  {
    if |s| == 0 then ""
    else if s[0] in drop then Drop(s[1..], drop)
    else [s[0]] + Drop(s[1..], drop)
  }

  lemma {:induction false} DropAppend(a: string, b: string, drop: set<char>)
    ensures Drop(a + b, drop) == Drop(a, drop) + Drop(b, drop)
    decreases |a|
  {
    if |a| > 0 {
      assert (a + b)[1..] == a[1..] + b;
      DropAppend(a[1..], b, drop);
    } else {
      assert a + b == b;
    }
  }

  /** Dropping characters twice is dropping the union once. */
  lemma {:induction false} DropDrop(s: string, d1: set<char>, d2: set<char>)
    ensures Drop(Drop(s, d1), d2) == Drop(s, d1 + d2)
    decreases |s|
  {
    if |s| > 0 {
      DropDrop(s[1..], d1, d2);
    }
  }

  /** A string with none of the dropped characters is its own `Drop`. */
  lemma {:induction false} DropNothing(s: string, drop: set<char>)
    requires forall i :: 0 <= i < |s| ==> s[i] !in drop
    ensures Drop(s, drop) == s
    decreases |s|
  {
    if |s| > 0 {
      DropNothing(s[1..], drop);
      assert [s[0]] + s[1..] == s;
    }
  }

  /** Replacing one character by the empty string removes exactly that character. */
  lemma {:induction false} ReplaceCharByEmpty(s: string, c: char)
    ensures ReplaceAll(s, [c], "") == Drop(s, {c})
    decreases |s|
  {
    if |s| > 0 {
      ReplaceCharByEmpty(s[1..], c);
      if s[0] == c {
        assert MatchAt(s, [c], 0);
      } else {
        assert !MatchAt(s, [c], 0);
      }
    }
  }

  /** `n` copies of the character `c`. */
  function Repeat(c: char, n: nat): (r: string)
    ensures |r| == n
  {
    if n == 0 then "" else [c] + Repeat(c, n - 1)
  }

  /** One more copy of `c` in front. */
  lemma RepeatCons(c: char, k: nat, r: string)
    ensures [c] + (Repeat(c, k) + r) == Repeat(c, k + 1) + r
  {
    assert Repeat(c, k + 1) == [c] + Repeat(c, k);
  }

  /** Python's `s.lstrip(c)` for a single character `c`: `s` is some number of copies of
      `c` followed by the result, and the result does not start with `c`. */
  function LStrip(s: string, c: char): (r: string)
    ensures |r| <= |s|
    ensures s == Repeat(c, |s| - |r|) + r
    ensures |r| > 0 ==> r[0] != c
  {
    if |s| > 0 && s[0] == c then
      var r := LStrip(s[1..], c);
      var k := |s| - 1 - |r|;
      assert s == [c] + s[1..];
      RepeatCons(c, k, r);
      r
    else
      assert s == Repeat(c, 0) + s;
      s
  }

  /** Python's `s[i:j]` for non-negative bounds: both are clamped to the length, and a
      reversed range is empty. */
  function Slice(s: string, i: nat, j: nat): (r: string)
    ensures i <= j <= |s| ==> r == s[i..j]
    ensures i <= |s| <= j ==> r == s[i..]
    ensures |s| <= i || j <= i ==> r == ""
  {
    var lo := if i <= |s| then i else |s|;
    var hi := if j <= |s| then j else |s|;
    if lo <= hi then s[lo..hi] else ""
  }

  /** Concatenation of a sequence of sequences, in order. */
  function Flatten<T>(ss: seq<seq<T>>): seq<T>
  {
    if |ss| == 0 then [] else ss[0] + Flatten(ss[1..])
  }

  lemma {:induction false} FlattenAppend<T>(a: seq<seq<T>>, b: seq<seq<T>>)
    ensures Flatten(a + b) == Flatten(a) + Flatten(b)
    decreases |a|
  {
    if |a| == 0 {
      assert a + b == b;
    } else {
      assert (a + b)[1..] == a[1..] + b;
      FlattenAppend(a[1..], b);
    }
  }
}

=== FILE: render_astrocyte.dfy ===
/**
 The string logic of the batch astrocyte renderer: reading the astrocyte list, the
 quality-checker command line, and the names and paths derived from each astrocyte file name.

 The list file is read in text mode, so line endings are translated first (`\r\n` and a lone
 `\r` both become `\n`); every line of the translated text, including its terminating `\n`,
 then gives one entry with every newline and space removed.
 */
module RenderAstrocyte {
  import opened PyStr

  // ---------------------------------------------------------------- counting and splitting

  /** The number of occurrences of `c` in `s`. */
  function Count(s: string, c: char): nat
  {
    if |s| == 0 then 0 else (if s[0] == c then 1 else 0) + Count(s[1..], c)
  }

  lemma {:induction false} CountAppend(a: string, b: string, c: char)
    ensures Count(a + b, c) == Count(a, c) + Count(b, c)
    decreases |a|
  {
    if |a| == 0 {
      assert a + b == b;
    } else {
      assert (a + b)[1..] == a[1..] + b;
      CountAppend(a[1..], b, c);
    }
  }

  /** Python's `s.split(c)` for a one-character separator: the pieces between separators,
      empty pieces included. */
  function Split(s: string, c: char): (parts: seq<string>)
    ensures |parts| >= 1
    decreases |s|
  {
    if |s| == 0 then [""]
    else if s[0] == c then [""] + Split(s[1..], c)
    else var rest := Split(s[1..], c); [[s[0]] + rest[0]] + rest[1..]
  }

  /** There is one more piece than separators. */
  lemma {:induction false} SplitPieces(s: string, c: char)
    ensures |Split(s, c)| == Count(s, c) + 1
    decreases |s|
  {
    if |s| > 0 {
      SplitPieces(s[1..], c);
    }
  }

  /** A piece without the separator, then the separator: the piece comes out first. */
  lemma {:induction false} SplitAfter(a: string, c: char, b: string)
    requires forall i :: 0 <= i < |a| ==> a[i] != c
    ensures Split(a + [c] + b, c) == [a] + Split(b, c)
    decreases |a|
  {
    var s := a + [c] + b;
    if |a| == 0 {
      assert s == [c] + b;
      assert s[1..] == b;
    } else {
      assert s[1..] == a[1..] + [c] + b;
      SplitAfter(a[1..], c, b);
      assert [a[0]] + a[1..] == a;
    }
  }

  /** A string without the separator is one piece. */
  lemma {:induction false} SplitNone(a: string, c: char)
    requires forall i :: 0 <= i < |a| ==> a[i] != c
    ensures Split(a, c) == [a]
    decreases |a|
  {
    if |a| > 0 {
      SplitNone(a[1..], c);
      assert [a[0]] + a[1..] == a;
    }
  }

  // ---------------------------------------------------------------- reading the list

  /** Text-mode newline translation: `\r\n` and a lone `\r` become `\n`. */
  function Translate(raw: string): (t: string)
    ensures |t| <= |raw|
    ensures forall i :: 0 <= i < |t| ==> t[i] != '\r'
    decreases |raw|
  {
    if |raw| == 0 then ""
    else if raw[0] == '\r' then
      if |raw| > 1 && raw[1] == '\n' then "\n" + Translate(raw[2..]) else "\n" + Translate(raw[1..])
    else [raw[0]] + Translate(raw[1..])
  }

  /** Apart from line breaks, translation keeps every character in order. */
  lemma {:induction false} TranslateKeepsText(raw: string)
    ensures Drop(Translate(raw), {'\n'}) == Drop(raw, {'\r', '\n'})
    decreases |raw|
  {
    if |raw| > 0 {
      if raw[0] == '\r' {
        if |raw| > 1 && raw[1] == '\n' {
          TranslateKeepsText(raw[2..]);
          assert raw[1..][1..] == raw[2..];
        } else {
          TranslateKeepsText(raw[1..]);
        }
      } else {
        TranslateKeepsText(raw[1..]);
      }
    }
  }

  /** Text without carriage returns is not changed by the translation. */
  lemma {:induction false} TranslatePlain(raw: string)
    requires forall i :: 0 <= i < |raw| ==> raw[i] != '\r'
    ensures Translate(raw) == raw
    decreases |raw|
  {
    if |raw| > 0 {
      TranslatePlain(raw[1..]);
      assert [raw[0]] + raw[1..] == raw;
    }
  }

  /** The translation is `raw.replace('\r\n', '\n').replace('\r', '\n')`: each `\r\n` pair
      becomes one `\n`, and so does every `\r` left over. */
  lemma {:induction false} TranslateIsReplace(raw: string)
    ensures Translate(raw) == ReplaceAll(ReplaceAll(raw, "\r\n", "\n"), "\r", "\n")
    decreases |raw|
  {
    if |raw| > 0 {
      var pair := raw[0] == '\r' && |raw| > 1 && raw[1] == '\n';
      var rest := if pair then raw[2..] else raw[1..];
      TranslateIsReplace(rest);
      var inner := ReplaceAll(rest, "\r\n", "\n");
      if pair {
        assert raw == "\r\n" + rest;
        ReplaceAllAtMatch("\r\n", rest, "\n");
        assert ("\n" + inner)[1..] == inner;
        ReplaceAllStep("\n" + inner, "\r", "\n");
      } else {
        assert !MatchAt(raw, "\r\n", 0);
        ReplaceAllStep(raw, "\r\n", "\n");
        if raw[0] == '\r' {
          ReplaceAllAtMatch("\r", inner, "\n");
        } else {
          assert ([raw[0]] + inner)[1..] == inner;
          ReplaceAllStep([raw[0]] + inner, "\r", "\n");
        }
      }
    }
  }

  /** The length of the first line of `t`: up to and including the first `\n`, or all of
      `t` when there is none. */
  function LineLength(t: string): (n: nat)
    ensures n <= |t|
    ensures |t| > 0 ==> n >= 1
    ensures forall i :: 0 <= i < n - 1 ==> t[i] != '\n'
    ensures 0 < n < |t| ==> t[n - 1] == '\n'
    decreases |t|
  {
    if |t| == 0 then 0 else if t[0] == '\n' then 1 else 1 + LineLength(t[1..])
  }

  /** A line as a text file yields it: non-empty, with a `\n` only at its end, and that `\n`
      present unless the line is the last one. */
  predicate IsLine(line: string, last: bool)
  {
    && |line| > 0
    && (forall i :: 0 <= i < |line| - 1 ==> line[i] != '\n')
    && (!last ==> line[|line| - 1] == '\n')
  }

  predicate WellSplit(lines: seq<string>)
  {
    forall k :: 0 <= k < |lines| ==> IsLine(lines[k], k == |lines| - 1)
  }

  /** Iterating over a text file: its lines, each with its terminating `\n`. */
  function Lines(t: string): (lines: seq<string>)
    ensures Flatten(lines) == t
    ensures WellSplit(lines)
    decreases |t|
  {
    if |t| == 0 then []
    else
      var n := LineLength(t);
      var rest := Lines(t[n..]);
      assert t[..n] + t[n..] == t;
      assert IsLine(t[..n], |rest| == 0);
      [t[..n]] + rest
  }

  /** `Lines` is the only way to cut a text into lines: cutting and re-joining is the
      identity. */
  lemma {:induction false} LinesUnique(lines: seq<string>)
    requires WellSplit(lines)
    ensures Lines(Flatten(lines)) == lines
    decreases |lines|
  {
    if |lines| > 0 {
      var rest := Flatten(lines[1..]);
      assert Flatten(lines) == lines[0] + rest;
      WellSplitTail(lines);
      LinesCons(lines[0], rest, |lines| == 1);
      LinesUnique(lines[1..]);
      assert [lines[0]] + lines[1..] == lines;
    }
  }

  /** The lines after the first are themselves well split. */
  lemma WellSplitTail(lines: seq<string>)
    requires |lines| > 0 && WellSplit(lines)
    ensures WellSplit(lines[1..])
    ensures IsLine(lines[0], |lines| == 1)
    ensures |lines| == 1 ==> Flatten(lines[1..]) == []
  {
    forall k | 0 <= k < |lines[1..]|
      ensures IsLine(lines[1..][k], k == |lines[1..]| - 1)
    {
      assert lines[1..][k] == lines[k + 1];
    }
  }

  /** A line in front of a text is its first line. */
  lemma LinesCons(l: string, rest: string, last: bool)
    requires IsLine(l, last)
    requires last ==> rest == []
    ensures Lines(l + rest) == [l] + Lines(rest)
  {
    var t := l + rest;
    LineLengthOfLine(l, rest, last);
    assert t[..|l|] == l && t[|l|..] == rest;
  }

  lemma {:induction false} LineLengthOfLine(l: string, rest: string, last: bool)
    requires IsLine(l, last)
    requires last ==> rest == []
    ensures LineLength(l + rest) == |l|
    decreases |l|
  {
    var s := l + rest;
    if s[0] != '\n' {
      assert |l| > 1 || (last && rest == []);
      if |l| > 1 {
        assert IsLine(l[1..], last);
        assert s[1..] == l[1..] + rest;
        LineLengthOfLine(l[1..], rest, last);
      } else {
        assert s == l;
      }
    }
  }

  /** One line per `\n`, plus one for a final line that has no `\n`. */
  lemma {:induction false} LineCount(t: string)
    ensures |Lines(t)| == Count(t, '\n') + (if |t| > 0 && t[|t| - 1] != '\n' then 1 else 0)
    decreases |t|
  {
    if |t| > 0 {
      var n := LineLength(t);
      assert t[..n] + t[n..] == t;
      CountAppend(t[..n], t[n..], '\n');
      LineCount(t[n..]);
      FirstLineCount(t[..n]);
      if |t[n..]| > 0 {
        assert t[n..][|t[n..]| - 1] == t[|t| - 1];
      }
    }
  }

  lemma {:induction false} FirstLineCount(l: string)
    requires |l| > 0 && forall i :: 0 <= i < |l| - 1 ==> l[i] != '\n'
    ensures Count(l, '\n') == if l[|l| - 1] == '\n' then 1 else 0
    decreases |l|
  {
    if |l| > 1 {
      FirstLineCount(l[1..]);
    }
  }

  /** The cleaning of one line: `line.replace('\n', '').replace(' ', '')`. */
  function CleanLine(line: string): string
  {
    ReplaceAll(ReplaceAll(line, "\n", ""), " ", "")
  }

  /** Cleaning removes exactly the newlines and spaces and keeps every other character. */
  lemma CleanLineDrops(line: string)
    ensures CleanLine(line) == Drop(line, {'\n', ' '})
  {
    assert "\n" == ['\n'] && " " == [' '];
    ReplaceCharByEmpty(line, '\n');
    ReplaceCharByEmpty(Drop(line, {'\n'}), ' ');
    DropDrop(line, {'\n'}, {' '});
    assert {'\n'} + {' '} == {'\n', ' '};
  }

  /** Cleaning an entry again changes nothing, and entries hold no newline or space. */
  lemma CleanLineIdempotent(line: string)
    ensures CleanLine(CleanLine(line)) == CleanLine(line)
    ensures forall i :: 0 <= i < |CleanLine(line)| ==> CleanLine(line)[i] != '\n' && CleanLine(line)[i] != ' '
  {
    CleanLineDrops(line);
    CleanLineDrops(CleanLine(line));
    DropNothing(CleanLine(line), {'\n', ' '});
  }

  function DropEach(lines: seq<string>, drop: set<char>): (r: seq<string>)
    ensures |r| == |lines| && forall k :: 0 <= k < |lines| ==> r[k] == Drop(lines[k], drop)
  {
    seq(|lines|, k requires 0 <= k < |lines| => Drop(lines[k], drop))
  }

  lemma {:induction false} FlattenDropEach(lines: seq<string>, drop: set<char>)
    ensures Flatten(DropEach(lines, drop)) == Drop(Flatten(lines), drop)
    decreases |lines|
  {
    if |lines| > 0 {
      assert DropEach(lines, drop)[1..] == DropEach(lines[1..], drop);
      FlattenDropEach(lines[1..], drop);
      DropAppend(lines[0], Flatten(lines[1..]), drop);
    }
  }

  /** Cleaning every line is dropping the newlines and spaces of every line. */
  lemma CleanEachLine(lines: seq<string>)
    ensures forall k :: 0 <= k < |lines| ==> CleanLine(lines[k]) == Drop(lines[k], {'\n', ' '})
  {
    forall k | 0 <= k < |lines| {
      CleanLineDrops(lines[k]);
    }
  }

  /** `get_astrocytes_paths_from_list` on the raw contents of the list file: one entry per
      line of the translated text (one per line break, plus one for a last line without
      one), each entry that line without its newlines and spaces; read together, the
      entries are the whole text without newlines and spaces. */
  function AstrocytePaths(contents: string): (paths: seq<string>)
    ensures var t := Translate(contents);
            |paths| == Count(t, '\n') + (if |t| > 0 && t[|t| - 1] != '\n' then 1 else 0)
    ensures forall k :: 0 <= k < |paths| ==>
              k < |Lines(Translate(contents))|
              && paths[k] == Drop(Lines(Translate(contents))[k], {'\n', ' '})
    ensures Flatten(paths) == Drop(Translate(contents), {'\n', ' '})
  {
    var t := Translate(contents);
    var lines := Lines(t);
    LineCount(t);
    FlattenDropEach(lines, {'\n', ' '});
    CleanLines(lines)
  }

  /** The loop body on every line, in order: each line without newlines and spaces. */
  function CleanLines(lines: seq<string>): (r: seq<string>)
    ensures r == DropEach(lines, {'\n', ' '})
  {
    CleanEachLine(lines);
    seq(|lines|, k requires 0 <= k < |lines| => CleanLine(lines[k]))
  }

  // ---------------------------------------------------------------- the quality checker

  /** `'%s --mesh %s --output-directory %s' % (executable, mesh, output)`. */
  function QualityCheckerCommand(executable: string, mesh: string, output: string): string
  {
    executable + " --mesh " + mesh + " --output-directory " + output
  }

  predicate NoSpace(s: string)
  {
    forall i :: 0 <= i < |s| ==> s[i] != ' '
  }

  /** The command as its fields with a space after each of the first four. */
  lemma CommandShape(executable: string, mesh: string, output: string)
    ensures QualityCheckerCommand(executable, mesh, output)
            == executable + [' '] + ("--mesh" + [' '] + (mesh + [' '] + ("--output-directory" + [' '] + output)))
  {
    assert " --mesh " == [' '] + "--mesh" + [' '];
    assert " --output-directory " == [' '] + "--output-directory" + [' '];
  }

  /** Split on spaces, the command gives back its five fields when no argument holds a space. */
  lemma QualityCheckerFields(executable: string, mesh: string, output: string)
    requires NoSpace(executable) && NoSpace(mesh) && NoSpace(output)
    ensures Split(QualityCheckerCommand(executable, mesh, output), ' ')
            == [executable, "--mesh", mesh, "--output-directory", output]
  {
    var tail3 := "--output-directory" + [' '] + output;
    var tail2 := mesh + [' '] + tail3;
    var tail1 := "--mesh" + [' '] + tail2;
    CommandShape(executable, mesh, output);
    SplitNone(output, ' ');
    SplitAfter("--output-directory", ' ', output);
    assert Split(tail3, ' ') == ["--output-directory", output];
    SplitAfter(mesh, ' ', tail3);
    assert Split(tail2, ' ') == [mesh, "--output-directory", output];
    SplitAfter("--mesh", ' ', tail2);
    assert Split(tail1, ' ') == ["--mesh", mesh, "--output-directory", output];
    SplitAfter(executable, ' ', tail1);
  }

  lemma {:induction false} CountAbsent(s: string, c: char)
    requires forall i :: 0 <= i < |s| ==> s[i] != c
    ensures Count(s, c) == 0
    decreases |s|
  {
    if |s| > 0 {
      CountAbsent(s[1..], c);
    }
  }

  /** An option name between two spaces holds two spaces. */
  lemma SpacedCount(option: string)
    requires NoSpace(option)
    ensures Count([' '] + option + [' '], ' ') == 2
  {
    CountAbsent(option, ' ');
    CountAppend([' '], option, ' ');
    CountAppend([' '] + option, [' '], ' ');
  }

  /** Fields separated by spaced option names: the separators add four spaces. */
  lemma {:induction false} SpacedFieldsCount(e: string, f1: string, m: string, f2: string, o: string)
    requires NoSpace(f1) && NoSpace(f2)
    ensures |Split(e + ([' '] + f1 + [' ']) + m + ([' '] + f2 + [' ']) + o, ' ')|
            == Count(e, ' ') + Count(m, ' ') + Count(o, ' ') + 5
  {
    var s1 := [' '] + f1 + [' '];
    var s2 := [' '] + f2 + [' '];
    SpacedCount(f1);
    SpacedCount(f2);
    CountAppend(e, s1, ' ');
    CountAppend(e + s1, m, ' ');
    CountAppend(e + s1 + m, s2, ' ');
    CountAppend(e + s1 + m + s2, o, ' ');
    SplitPieces(e + s1 + m + s2 + o, ' ');
  }

  /** A space inside an argument adds a field: the command has one field per space, plus one. */
  lemma QualityCheckerFieldCount(executable: string, mesh: string, output: string)
    ensures |Split(QualityCheckerCommand(executable, mesh, output), ' ')|
            == Count(executable, ' ') + Count(mesh, ' ') + Count(output, ' ') + 5
  {
    assert " --mesh " == [' '] + "--mesh" + [' '];
    assert " --output-directory " == [' '] + "--output-directory" + [' '];
    SpacedFieldsCount(executable, "--mesh", mesh, "--output-directory", output);
  }

  // ---------------------------------------------------------------- replacing a suffix

  /** When the first character of `pat` occurs nowhere else in it, no occurrence can start
      inside `p` and run into the `pat` that follows `p`. */
  lemma NoStraddle(p: string, pat: string, q: string)
    requires |pat| > 0 && forall j :: 0 < j < |pat| ==> pat[j] != pat[0]
    requires Free(p, pat)
    ensures NoMatchBefore(p + pat + q, pat, |p|)
  {
    var s := p + pat + q;
    forall i: nat | i < |p|
      ensures !MatchAt(s, pat, i)
    {
      if i + |pat| <= |p| {
        assert s[i..i + |pat|] == p[i..i + |pat|];
        assert !MatchAt(p, pat, i);
      } else if i + |pat| <= |s| {
        var w := s[i..i + |pat|];
        assert w[|p| - i] == s[|p|] == pat[0];
        assert w[|p| - i] != pat[|p| - i];
      }
    }
  }

  /** Replacing a pattern that occurs once, at the end, rewrites just that end. */
  lemma ReplaceSuffix(stem: string, pat: string, rep: string)
    requires |pat| > 0 && forall j :: 0 < j < |pat| ==> pat[j] != pat[0]
    requires Free(stem, pat)
    ensures ReplaceAll(stem + pat, pat, rep) == stem + rep
  {
    NoStraddle(stem, pat, "");
    assert stem + pat + "" == stem + pat;
    ReplaceAllFirstMatch(stem, pat, "", rep);
  }

  /** The mesh extension. */
  const Obj: string := ".obj"

  /** The astrocyte names the script is meant for: a stem without `.obj`, plus `.obj`. */
  predicate IsObjStem(stem: string)
  {
    Free(stem, Obj)
  }

  // ---------------------------------------------------------------- names and paths

  /** `'%s/%s' % (directory, name)`. */
  function Join(directory: string, name: string): string
  {
    directory + "/" + name
  }

  /** Two strings with different endings differ. */
  lemma DifferentEndings(x: string, sx: string, y: string, sy: string, j: nat)
    requires j < |sx| && j < |sy| && sx[|sx| - 1 - j] != sy[|sy| - 1 - j]
    ensures x + sx != y + sy
  {
    if |x + sx| == |y + sy| {
      assert (x + sx)[|x + sx| - 1 - j] == sx[|sx| - 1 - j];
      assert (y + sy)[|y + sy| - 1 - j] == sy[|sy| - 1 - j];
    }
  }

  /** The output hierarchy under the output directory. */
  datatype Layout = Layout(intermediate: string, images: string, scenes: string)

  function OutputLayout(output: string): (l: Layout)
    ensures l.intermediate != l.images && l.intermediate != l.scenes && l.images != l.scenes
  {
    DifferentEndings(output, "/intermediate-images", output, "/images", 6);
    DifferentEndings(output, "/intermediate-images", output, "/scenes", 2);
    DifferentEndings(output, "/images", output, "/scenes", 2);
    Layout(output + "/intermediate-images", output + "/images", output + "/scenes")
  }

  /** Every directory of the layout is a child of the output directory. */
  lemma LayoutUnderOutput(output: string)
    ensures var l := OutputLayout(output);
            l.intermediate == Join(output, "intermediate-images")
            && l.images == Join(output, "images") && l.scenes == Join(output, "scenes")
  {
  }

  /** The per-mesh working directories of `process_mesh`. */
  function PanelsDirectory(intermediate: string, meshName: string): string
  {
    Join(intermediate, meshName + "-panels")
  }

  function StatsDirectory(intermediate: string, meshName: string): string
  {
    Join(intermediate, meshName + "-stats")
  }

  /** Removing a stats directory never removes a panels directory, whatever the names. */
  lemma PanelsAndStatsNeverCollide(i1: string, n1: string, i2: string, n2: string)
    ensures PanelsDirectory(i1, n1) != StatsDirectory(i2, n2)
  {
    assert PanelsDirectory(i1, n1) == (i1 + "/" + n1) + "-panels";
    assert StatsDirectory(i2, n2) == (i2 + "/" + n2) + "-stats";
    DifferentEndings(i1 + "/" + n1, "-panels", i2 + "/" + n2, "-stats", 1);
  }

  /** The rendering and the combined image of `process_mesh`. */
  function RenderingImage(panels: string, meshName: string): string
  {
    Join(panels, meshName + ".png")
  }

  function CombinedImage(images: string, meshName: string): string
  {
    Join(images, meshName)
  }

  /** The rendering the combination reads lies in the mesh's panels directory, so the
      removal of its stats directory just before leaves it in place. */
  lemma RenderingImageOutsideStats(intermediate: string, meshName: string)
    ensures var r := RenderingImage(PanelsDirectory(intermediate, meshName), meshName);
            && r == PanelsDirectory(intermediate, meshName) + "/" + meshName + ".png"
            && !(StatsDirectory(intermediate, meshName) + "/" <= r)
  {
    var r := RenderingImage(PanelsDirectory(intermediate, meshName), meshName);
    var d := StatsDirectory(intermediate, meshName) + "/";
    var base := intermediate + "/" + meshName;
    assert r == base + ("-panels/" + meshName + ".png");
    assert d == base + "-stats/";
    assert r[|base| + 1] == 'p';
    assert d[|base| + 1] == 's';
  }

  /** The combined image goes to the images directory, never into the intermediate tree
      where the panels directories are removed. */
  lemma CombinedImageOutsideIntermediate(output: string, meshName: string)
    ensures var l := OutputLayout(output);
            && CombinedImage(l.images, meshName) == output + "/images/" + meshName
            && !(l.intermediate + "/" <= CombinedImage(l.images, meshName))
  {
    var l := OutputLayout(output);
    var c := CombinedImage(l.images, meshName);
    var d := l.intermediate + "/";
    assert c == output + ("/images/" + meshName);
    assert d == output + "/intermediate-images/";
    assert c[|output| + 2] == 'm';
    assert d[|output| + 2] == 'n';
  }

  /** The mesh names: every `.obj` removed, then a suffix. */
  function SkinnedName(astrocyte: string): string
  {
    ReplaceAll(astrocyte, Obj, "") + "-skinned"
  }

  function OptimizedName(astrocyte: string): string
  {
    ReplaceAll(astrocyte, Obj, "") + "-optimized"
  }

  lemma MeshNamesOfStem(stem: string)
    requires IsObjStem(stem)
    ensures SkinnedName(stem + Obj) == stem + "-skinned"
    ensures OptimizedName(stem + Obj) == stem + "-optimized"
  {
    ReplaceSuffix(stem, Obj, "");
  }

  /** The skinned and the optimized mesh of any two astrocytes never share a name, so their
      panels and stats directories are distinct. */
  lemma SkinnedAndOptimizedNeverCollide(a: string, b: string, intermediate: string)
    ensures SkinnedName(a) != OptimizedName(b)
    ensures PanelsDirectory(intermediate, SkinnedName(a)) != PanelsDirectory(intermediate, OptimizedName(b))
    ensures StatsDirectory(intermediate, SkinnedName(a)) != StatsDirectory(intermediate, OptimizedName(b))
  {
    SuffixedNamesDiffer(ReplaceAll(a, Obj, ""), ReplaceAll(b, Obj, ""), intermediate);
  }

  /** Whatever remains of the two file names, the `-skinned` and `-optimized` suffixes keep
      the names and their working directories apart. */
  lemma SuffixedNamesDiffer(ra: string, rb: string, intermediate: string)
    ensures ra + "-skinned" != rb + "-optimized"
    ensures PanelsDirectory(intermediate, ra + "-skinned") != PanelsDirectory(intermediate, rb + "-optimized")
    ensures StatsDirectory(intermediate, ra + "-skinned") != StatsDirectory(intermediate, rb + "-optimized")
  {
    DifferentEndings(ra, "-skinned", rb, "-optimized", 2);
    var pa := intermediate + "/" + ra;
    var pb := intermediate + "/" + rb;
    assert PanelsDirectory(intermediate, ra + "-skinned") == pa + "-skinned-panels";
    assert PanelsDirectory(intermediate, rb + "-optimized") == pb + "-optimized-panels";
    DifferentEndings(pa, "-skinned-panels", pb, "-optimized-panels", 9);
    assert StatsDirectory(intermediate, ra + "-skinned") == pa + "-skinned-stats";
    assert StatsDirectory(intermediate, rb + "-optimized") == pb + "-optimized-stats";
    DifferentEndings(pa, "-skinned-stats", pb, "-optimized-stats", 8);
  }

  /** The input meshes: `<input>/skinned/<astrocyte>` and
      `<input>/optimized/<astrocyte with .obj -> -manifold.obj>`. */
  function SkinnedMeshPath(input: string, astrocyte: string): string
  {
    Join(input + "/skinned", astrocyte)
  }

  function OptimizedFileName(astrocyte: string): string
  {
    ReplaceAll(astrocyte, Obj, "-manifold.obj")
  }

  function OptimizedMeshPath(input: string, astrocyte: string): string
  {
    Join(input + "/optimized", OptimizedFileName(astrocyte))
  }

  lemma OptimizedPathOfStem(input: string, stem: string)
    requires IsObjStem(stem)
    ensures OptimizedFileName(stem + Obj) == stem + "-manifold.obj"
    ensures OptimizedMeshPath(input, stem + Obj) == input + "/optimized/" + stem + "-manifold.obj"
    ensures SkinnedMeshPath(input, stem + Obj) == input + "/skinned/" + stem + ".obj"
  {
    ReplaceSuffix(stem, Obj, "-manifold.obj");
  }

  /** The optimized mesh is never read from where the skinned mesh is, whatever the list
      entry: the two paths part at the first letter of `skinned` and `optimized`. */
  lemma InputMeshesDiffer(input: string, astrocyte: string)
    ensures SkinnedMeshPath(input, astrocyte) != OptimizedMeshPath(input, astrocyte)
  {
    var s := SkinnedMeshPath(input, astrocyte);
    var o := OptimizedMeshPath(input, astrocyte);
    assert s == input + ("/skinned/" + astrocyte);
    assert o == input + ("/optimized/" + OptimizedFileName(astrocyte));
    assert s[|input| + 1] == 's';
    assert o[|input| + 1] == 'o';
  }

  /** The artistic image: `<images>/<mesh name with every '-manifold' removed>-artistic.png`,
      the file the renderer writes for the image name `<...>-artistic`. */
  function ArtisticImageName(meshName: string): string
  {
    ReplaceAll(meshName, "-manifold", "") + "-artistic"
  }

  function ArtisticImagePath(images: string, meshName: string): string
  {
    Join(images, ArtisticImageName(meshName) + ".png")
  }

  lemma ArtisticPathOfManifold(images: string, stem: string)
    requires Free(stem, "-manifold")
    ensures ArtisticImagePath(images, stem + "-manifold") == images + "/" + stem + "-artistic.png"
  {
    ReplaceSuffix(stem, "-manifold", "");
  }

  /** The blend scene of the artistic rendering is named from the astrocyte file name with
      every `manifold.obj` removed; a list entry such as `a.obj` keeps its extension. */
  function ArtisticSceneName(astrocyte: string): string
  {
    ReplaceAll(astrocyte, "manifold.obj", "") + "-artistic"
  }

  lemma ArtisticSceneKeepsExtension(astrocyte: string)
    requires Free(astrocyte, "manifold.obj")
    ensures ArtisticSceneName(astrocyte) == astrocyte + "-artistic"
  {
    ReplaceAllAbsent(astrocyte, "manifold.obj", "");
  }

  /** The skinned-versus-optimized comparison image:
      `<images>/<astrocyte with .obj -> -skinned-optimized.png>`. */
  function ComparisonImagePath(images: string, astrocyte: string): string
  {
    Join(images, ReplaceAll(astrocyte, Obj, "-skinned-optimized.png"))
  }

  lemma ComparisonPathOfStem(images: string, stem: string)
    requires IsObjStem(stem)
    ensures ComparisonImagePath(images, stem + Obj) == images + "/" + stem + "-skinned-optimized.png"
  {
    ReplaceSuffix(stem, Obj, "-skinned-optimized.png");
  }
}

=== FILE: results.dfy ===
/** Failure-carrying values shared by the modules of this model. */
module Results {

  /** A value that may be absent; `None` stands for a Python exception raised by a parse. */
  datatype Option<+T> = None | Some(value: T)

  /** The outcome of an operation that either returns a value or raises an error. */
  datatype Result<+T, +E> = Success(value: T) | Failure(error: E)
}

=== FILE: spiny_ops.dfy ===
/**
 The bookkeeping of random spine placement along a morphology section.

 `get_random_spines_across_section` gates on the section's branching order, turns the spine
 density into a count, clamps the count to the faces of a proxy mesh built around the
 section, samples that many faces without replacement, and for every sampled face places a
 randomly chosen template spine and appends one `SpineSection` per template spline, its
 samples indexed consecutively across the whole spine.

 `get_random_spines_across_segments` samples the same number of faces on the tube of every
 segment and appends the centre and normal of each sampled face.

 Geometry is abstract: faces are identifiers, the placement of a template point (scale,
 translation and rotation through the template's local matrix) is a function parameter, and
 the random draws are parameters constrained to be draws the random module can return.
 */
module SpinyOps {
  import opened Results

  datatype Vec3 = Vec3(x: real, y: real, z: real)

  /** A skeleton sample: a point, a radius and an index. */
  datatype Sample = Sample(point: Vec3, radius: real, index: int)

  /** A morphology section: its samples and its branching order. */
  datatype Section = Section(samples: seq<Sample>, branchingOrder: int)

  /** A control point of a template spline: coordinates and radius. */
  datatype ControlPoint = ControlPoint(co: Vec3, radius: real)

  /** A template spine structure: its splines, each a sequence of control points. */
  datatype SpineTemplate = SpineTemplate(splines: seq<seq<ControlPoint>>)

  /** One reconstructed spine section. */
  datatype SpineSection = SpineSection(samples: seq<Sample>)

  /** The centre and normal of face `face` of the tube around segment `segment`. */
  datatype Anchor = Anchor(segment: nat, face: FaceId)

  /** A polygon of a proxy mesh. */
  type FaceId = nat

  /** Where the host puts a template point when template `t` is placed on face `f`. */
  type Placement = (FaceId, nat, Vec3) -> Vec3

  datatype SpineError =
    | EmptyTemplates            // `random.choice` on an empty list raises `IndexError`
    | SampleLargerThanPopulation  // `random.sample` raises `ValueError`

  // ---------------------------------------------------------------- counting

  /** Python's `int(x)` on a float: truncation toward zero. */
  function Trunc(x: real): (n: int)
    ensures x >= 0.0 ==> n as real <= x < n as real + 1.0
    ensures x < 0.0 ==> n as real - 1.0 < x <= n as real
  {
    if x >= 0.0 then x.Floor else -((-x).Floor)
  }

  /** The number of spines a density asks for on a section of the given length. */
  function RequestedSpines(length: real, density: real): int
  {
    Trunc(length * density)
  }

  /** The count after both clamps: raised to 1 when below 1, then replaced by half the face
      count (rounded down) when it exceeds the face count. */
  function SpineCount(requested: int, faces: nat): (n: nat)
    ensures n <= faces
    ensures 1 <= requested <= faces ==> n == requested
    ensures requested < 1 && 1 <= faces ==> n == 1
    ensures requested > faces ==> n == faces / 2
    ensures n == 0 <==> faces == 0 || (faces == 1 && requested > 1)
  {
    var atLeastOne := if requested < 1 then 1 else requested;
    if atLeastOne > faces then faces / 2 else atLeastOne
  }

  // ---------------------------------------------------------------- sampling

  /** `sel` is a possible result of `random.sample(range(population), k)`: `k` distinct
      positions of the population, in the order drawn. */
  predicate IsSampleOf(sel: seq<nat>, population: nat, k: nat)
  {
    && |sel| == k
    && (forall i :: 0 <= i < |sel| ==> sel[i] < population)
    && (forall i, j :: 0 <= i < j < |sel| ==> sel[i] != sel[j])
  }

  /** The first `k` positions, `[0, 1, ..., k - 1]`. */
  function Range(k: nat): (r: seq<nat>)
    ensures |r| == k && forall i :: 0 <= i < k ==> r[i] == i
  {
    if k == 0 then [] else Range(k - 1) + [k - 1]
  }

  /** The positions `0 .. n - 1` as a set. */
  function Below(n: nat): (s: set<nat>)
    ensures forall x: nat :: x in s <==> x < n
    ensures |s| == n
  {
    if n == 0 then {} else Below(n - 1) + {n - 1}
  }

  /** The elements of a sequence, as a set. */
  function Elements(sel: seq<nat>): (s: set<nat>)
    ensures forall x :: x in s <==> x in sel
  {
    if |sel| == 0 then {} else Elements(sel[..|sel| - 1]) + {sel[|sel| - 1]}
  }

  /** A sequence without repeats has as many elements as its set of elements. */
  lemma {:induction false} DistinctElements(sel: seq<nat>)
    requires forall i, j :: 0 <= i < j < |sel| ==> sel[i] != sel[j]
    ensures |Elements(sel)| == |sel|
  {
    if |sel| > 0 {
      var init := sel[..|sel| - 1];
      DistinctElements(init);
      assert sel[|sel| - 1] !in init;
    }
  }

  /** `random.sample` succeeds exactly when the sample is no larger than the population: a
      draw of `k` distinct positions exists if and only if `k <= population`. */
  lemma SampleExistsIff(population: nat, k: nat)
    ensures (exists sel :: IsSampleOf(sel, population, k)) <==> k <= population
  {
    if k <= population {
      assert IsSampleOf(Range(k), population, k);
    }
    if sel :| IsSampleOf(sel, population, k) {
      DistinctElements(sel);
      SubsetSize(Elements(sel), Below(population));
    }
  }

  lemma {:induction false} SubsetSize(a: set<nat>, b: set<nat>)
    requires a <= b
    ensures |a| <= |b|
    decreases |b|
  {
    if b != {} {
      var x :| x in b;
      SubsetSize(a - {x}, b - {x});
    }
  }

  /** After the clamps the count never exceeds the faces, so the draw always exists. */
  lemma SpineCountCanBeSampled(requested: int, faces: nat)
    ensures exists sel :: IsSampleOf(sel, faces, SpineCount(requested, faces))
  {
    SampleExistsIff(faces, SpineCount(requested, faces));
  }

  // ---------------------------------------------------------------- assembling one spine

  /** A template point placed on face `face` as template `t`, with sample index `index`. */
  function PlacedSample(place: Placement, face: FaceId, t: nat, p: ControlPoint, index: int): Sample
  {
    Sample(place(face, t, p.co), p.radius, index)
  }

  /** The samples of one spline, in point order, indexed consecutively from `first`. */
  function SplineSamples(points: seq<ControlPoint>, place: Placement, face: FaceId, t: nat, first: int)
    : (r: seq<Sample>)
    ensures |r| == |points|
    ensures forall j :: 0 <= j < |points| ==> r[j] == PlacedSample(place, face, t, points[j], first + j)
    decreases |points|
  {
    if |points| == 0 then []
    else [PlacedSample(place, face, t, points[0], first)]
         + SplineSamples(points[1..], place, face, t, first + 1)
  }

  /** The number of points in the first `k` splines. */
  function PointsBefore(splines: seq<seq<ControlPoint>>, k: nat): nat
    requires k <= |splines|
  {
    if k == 0 then 0 else PointsBefore(splines, k - 1) + |splines[k - 1]|
  }

  /** Section `k` of a placed template: the samples of spline `k`, indexed from the number
      of points of the splines before it. */
  function SpineSectionAt(splines: seq<seq<ControlPoint>>, place: Placement, face: FaceId, t: nat, k: nat)
    : SpineSection
    requires k < |splines|
  {
    SpineSection(SplineSamples(splines[k], place, face, t, PointsBefore(splines, k)))
  }

  /** The spine sections of one placed template, one per spline, so that sample indices
      start at 0 and run on across the splines. */
  function SpineSections(splines: seq<seq<ControlPoint>>, place: Placement, face: FaceId, t: nat)
    : (r: seq<SpineSection>)
    ensures |r| == |splines|
    ensures forall k :: 0 <= k < |splines| ==> r[k] == SpineSectionAt(splines, place, face, t, k)
  {
    seq(|splines|, k requires 0 <= k < |splines| => SpineSectionAt(splines, place, face, t, k))
  }

  /** The inner loop of the reconstruction: one sample per point, the running index
      incremented after each. */
  method BuildSplineSamples(points: seq<ControlPoint>, place: Placement, face: FaceId, t: nat, first: int)
    returns (samples: seq<Sample>, next: int)
    ensures samples == SplineSamples(points, place, face, t, first)
    ensures next == first + |points|
  {
    samples := [];
    next := first;
    var j := 0;
    while j < |points|
      invariant 0 <= j <= |points|
      invariant next == first + j
      invariant |samples| == j
      invariant forall m :: 0 <= m < j ==> samples[m] == PlacedSample(place, face, t, points[m], first + m)
    {
      samples := samples + [PlacedSample(place, face, t, points[j], next)];
      next := next + 1;
      j := j + 1;
    }
  }

  /** The reconstruction loop of one spine as the add-on runs it: a running sample index
      that starts at 0 and is incremented once per point, across all splines. */
  method AssembleSpine(template: SpineTemplate, place: Placement, face: FaceId, t: nat)
    returns (sections: seq<SpineSection>)
    ensures sections == SpineSections(template.splines, place, face, t)
  {
    var splines := template.splines;
    ghost var spec := SpineSections(splines, place, face, t);
    sections := [];
    var index := 0;
    var k := 0;
    while k < |splines|
      invariant 0 <= k <= |splines|
      invariant index == PointsBefore(splines, k)
      invariant sections == spec[..k]
    {
      var samples;
      samples, index := BuildSplineSamples(splines[k], place, face, t, index);
      assert spec[k] == SpineSection(samples);
      sections := sections + [SpineSection(samples)];
      k := k + 1;
    }
  }

  /** All samples of a sequence of spine sections, section by section. */
  function AllSamples(sections: seq<SpineSection>): seq<Sample>
  {
    if |sections| == 0 then [] else AllSamples(sections[..|sections| - 1]) + sections[|sections| - 1].samples
  }

  lemma {:induction false} PointsBeforePrefix(splines: seq<seq<ControlPoint>>, n: nat, k: nat)
    requires k <= n <= |splines|
    ensures PointsBefore(splines[..n], k) == PointsBefore(splines, k)
    decreases k
  {
    if k > 0 {
      PointsBeforePrefix(splines, n, k - 1);
    }
  }

  /** Across one spine the sample indices are exactly `0, 1, 2, ...` in order, one per
      template point. */
  lemma {:induction false} SpineIndicesConsecutive(splines: seq<seq<ControlPoint>>, place: Placement,
                                                   face: FaceId, t: nat)
    ensures var all := AllSamples(SpineSections(splines, place, face, t));
            |all| == PointsBefore(splines, |splines|)
            && forall m :: 0 <= m < |all| ==> all[m].index == m
    decreases |splines|
  {
    var n := |splines|;
    if n > 0 {
      var init := splines[..n - 1];
      SpineIndicesConsecutive(init, place, face, t);
      var secs := SpineSections(splines, place, face, t);
      assert secs[..n - 1] == SpineSections(init, place, face, t) by {
        forall k | 0 <= k < n - 1
          ensures secs[..n - 1][k] == SpineSections(init, place, face, t)[k]
        {
          PointsBeforePrefix(splines, n - 1, k);
        }
      }
      PointsBeforePrefix(splines, n - 1, n - 1);
    } else {
      assert SpineSections(splines, place, face, t) == [];
    }
  }

  // ---------------------------------------------------------------- across a section

  /** The number of splines of the templates picked for the sampled faces. */
  function SplineTotal(templates: seq<SpineTemplate>, picks: seq<nat>): nat
    requires forall i :: 0 <= i < |picks| ==> picks[i] < |templates|
  {
    if |picks| == 0 then 0 else |templates[picks[0]].splines| + SplineTotal(templates, picks[1..])
  }

  /** The sections appended for the sampled faces, face by face in sampling order: face
      `faces[sel[i]]` receives template `templates[picks[i]]`. */
  function NewSpines(faces: seq<FaceId>, templates: seq<SpineTemplate>, sel: seq<nat>, picks: seq<nat>,
                     place: Placement): (r: seq<SpineSection>)
    requires |picks| == |sel|
    requires forall i :: 0 <= i < |sel| ==> sel[i] < |faces|
    requires forall i :: 0 <= i < |picks| ==> picks[i] < |templates|
    ensures |r| == SplineTotal(templates, picks)
    decreases |sel|
  {
    if |sel| == 0 then []
    else SpineSections(templates[picks[0]].splines, place, faces[sel[0]], picks[0])
         + NewSpines(faces, templates, sel[1..], picks[1..], place)
  }

  /** The number of splines of the templates picked for the first `i` faces. */
  function SplinesBefore(templates: seq<SpineTemplate>, picks: seq<nat>, i: nat): nat
    requires i <= |picks|
    requires forall m :: 0 <= m < |picks| ==> picks[m] < |templates|
  {
    SplineTotal(templates, picks[..i])
  }

  /** The spine grown on the `i`-th sampled face sits right after the spines of the faces
      sampled before it. */
  lemma {:induction false} NewSpinesBlock(faces: seq<FaceId>, templates: seq<SpineTemplate>, sel: seq<nat>,
                                          picks: seq<nat>, place: Placement, i: nat, k: nat)
    requires |picks| == |sel|
    requires forall m :: 0 <= m < |sel| ==> sel[m] < |faces|
    requires forall m :: 0 <= m < |picks| ==> picks[m] < |templates|
    requires i < |sel| && k < |templates[picks[i]].splines|
    ensures SplinesBefore(templates, picks, i) + k < |NewSpines(faces, templates, sel, picks, place)|
    ensures NewSpines(faces, templates, sel, picks, place)[SplinesBefore(templates, picks, i) + k]
            == SpineSections(templates[picks[i]].splines, place, faces[sel[i]], picks[i])[k]
    decreases i
  {
    var first := SpineSections(templates[picks[0]].splines, place, faces[sel[0]], picks[0]);
    var rest := NewSpines(faces, templates, sel[1..], picks[1..], place);
    if i == 0 {
      assert picks[..0] == [];
    } else {
      NewSpinesBlock(faces, templates, sel[1..], picks[1..], place, i - 1, k);
      assert picks[..i][1..] == picks[1..][..i - 1];
      assert SplinesBefore(templates, picks, i) == |first| + SplinesBefore(templates, picks[1..], i - 1);
    }
  }

  /** `get_random_spines_across_section`, returning the extended `result` list. The draws
      of `random.sample` (`sel`, positions into `faces`) and of `random.choice` (`picks`,
      positions into `templates`) are parameters; they are only drawn when the section
      passes the branching-order gate. */
  function SpinesAcrossSection(section: Section, templates: seq<SpineTemplate>, length: real, density: real,
                               maxBranchingOrder: int, faces: seq<FaceId>, sel: seq<nat>, picks: seq<nat>,
                               place: Placement, result: seq<SpineSection>)
    : (r: Result<seq<SpineSection>, SpineError>)
    requires section.branchingOrder <= maxBranchingOrder ==>
               IsSampleOf(sel, |faces|, SpineCount(RequestedSpines(length, density), |faces|))
    requires section.branchingOrder <= maxBranchingOrder && |templates| > 0 ==>
               |picks| == |sel| && forall i :: 0 <= i < |picks| ==> picks[i] < |templates|
    ensures section.branchingOrder > maxBranchingOrder ==> r == Success(result)
    ensures r.Failure? <==>
              && section.branchingOrder <= maxBranchingOrder
              && |templates| == 0
              && SpineCount(RequestedSpines(length, density), |faces|) > 0
    ensures r.Failure? ==> r.error == EmptyTemplates
    ensures r.Success? ==> |result| <= |r.value| && r.value[..|result|] == result
    ensures r.Success? && section.branchingOrder <= maxBranchingOrder && |templates| > 0 ==>
              |r.value| == |result| + SplineTotal(templates, picks)
    ensures r.Success? && section.branchingOrder <= maxBranchingOrder && |templates| > 0 ==>
              r.value == result + NewSpines(faces, templates, sel, picks, place)
    ensures r.Success? && |templates| == 0 ==> r.value == result
  {
    if section.branchingOrder > maxBranchingOrder then Success(result)
    else if |sel| == 0 then Success(result)
    else if |templates| == 0 then Failure(EmptyTemplates)
    else Success(result + NewSpines(faces, templates, sel, picks, place))
  }

  // ---------------------------------------------------------------- across segments

  /** `range(len(samples) - 1)` has this many elements: none for fewer than two samples. */
  function SegmentCount(section: Section): nat
  {
    if |section.samples| == 0 then 0 else |section.samples| - 1
  }

  /** The anchors of segment `i`: the centre and normal of each face drawn on its tube, in
      drawing order. */
  function SegmentAnchors(segmentFaces: seq<seq<FaceId>>, selections: seq<seq<nat>>, n: nat, i: nat)
    : seq<Anchor>
    requires i < |segmentFaces| && i < |selections|
    requires IsSampleOf(selections[i], |segmentFaces[i]|, n)
  {
    seq(n, j requires 0 <= j < n => Anchor(i, segmentFaces[i][selections[i][j]]))
  }

  /** Every segment's draw is a valid sample of `n` of its faces. */
  predicate AllSampled(segmentFaces: seq<seq<FaceId>>, selections: seq<seq<nat>>, n: nat, k: nat)
  {
    && k <= |segmentFaces| && k <= |selections|
    && forall i :: 0 <= i < k ==> IsSampleOf(selections[i], |segmentFaces[i]|, n)
  }

  /** The anchors of the first `k` segments, segment by segment. */
  function AnchorsUpTo(segmentFaces: seq<seq<FaceId>>, selections: seq<seq<nat>>, n: nat, k: nat)
    : (r: seq<Anchor>)
    requires AllSampled(segmentFaces, selections, n, k)
    ensures |r| == k * n
  {
    if k == 0 then []
    else AnchorsUpTo(segmentFaces, selections, n, k - 1) + SegmentAnchors(segmentFaces, selections, n, k - 1)
  }

  /** Anchor `j` of segment `i` is entry `i * n + j`. */
  lemma {:induction false} AnchorsUpToAt(segmentFaces: seq<seq<FaceId>>, selections: seq<seq<nat>>,
                                         n: nat, k: nat, i: nat, j: nat)
    requires AllSampled(segmentFaces, selections, n, k)
    requires i < k && j < n
    ensures i * n + j < k * n
    ensures AnchorsUpTo(segmentFaces, selections, n, k)[i * n + j]
            == Anchor(i, segmentFaces[i][selections[i][j]])
    decreases k
  {
    assert i * n + j < (i + 1) * n <= k * n;
    if i < k - 1 {
      AnchorsUpToAt(segmentFaces, selections, n, k - 1, i, j);
    } else {
      assert i * n == (k - 1) * n;
    }
  }

  /** The inner loop of `get_random_spines_across_segments`: the anchors of the `n` faces
      drawn on the tube of segment `i`, in drawing order. */
  method SegmentBlock(i: nat, faces: seq<FaceId>, chosen: seq<nat>, n: nat) returns (block: seq<Anchor>)
    requires IsSampleOf(chosen, |faces|, n)
    ensures |block| == n
    ensures forall q :: 0 <= q < n ==> block[q] == Anchor(i, faces[chosen[q]])
  {
    block := [];
    var j := 0;
    while j < n
      invariant 0 <= j <= n
      invariant |block| == j
      invariant forall q :: 0 <= q < j ==> block[q] == Anchor(i, faces[chosen[q]])
    {
      block := block + [Anchor(i, faces[chosen[j]])];
      j := j + 1;
    }
  }

  /** Every one of the first `k` segments has at least `n >= 0` faces, so `random.sample`
      can draw `n` of them. */
  predicate FitsEverySegment(segmentFaces: seq<seq<FaceId>>, n: int, k: nat)
    requires k <= |segmentFaces|
  {
    forall i :: 0 <= i < k ==> 0 <= n <= |segmentFaces[i]|
  }

  /** One segment with too few faces is enough for `n` not to fit. */
  lemma MissesSegment(segmentFaces: seq<seq<FaceId>>, n: int, k: nat, i: nat)
    requires i < k <= |segmentFaces|
    requires !(0 <= n <= |segmentFaces[i]|)
    ensures !FitsEverySegment(segmentFaces, n, k)
  {
    var faces := segmentFaces[i];
    assert !(0 <= n <= |faces|);
  }

  /** `get_random_spines_across_segments`, returning the extended `result` list. For each
      segment `i`, `segmentFaces[i]` are the faces of its tube and `selections[i]` the draw
      of `random.sample` on them. A segment with fewer faces than `n` (or a negative `n`)
      makes `random.sample` raise before anything is appended. */
  method SpinesAcrossSegments(section: Section, n: int, segmentFaces: seq<seq<FaceId>>,
                              selections: seq<seq<nat>>, result: seq<Anchor>)
    returns (r: Result<seq<Anchor>, SpineError>)
    requires |segmentFaces| == SegmentCount(section) && |selections| == SegmentCount(section)
    requires forall i :: 0 <= i < |selections| && 0 <= n <= |segmentFaces[i]| ==>
               IsSampleOf(selections[i], |segmentFaces[i]|, n)
    ensures r.Success? <==> FitsEverySegment(segmentFaces, n, SegmentCount(section))
    ensures r.Failure? ==> r.error == SampleLargerThanPopulation
    ensures r.Success? ==> |result| <= |r.value| && r.value[..|result|] == result
    ensures r.Success? && SegmentCount(section) > 0 ==> n >= 0 && |r.value| == |result| + n * SegmentCount(section)
    ensures r.Success? && SegmentCount(section) == 0 ==> r.value == result
    ensures r.Success? && n >= 0 ==>
              AllSampled(segmentFaces, selections, n, SegmentCount(section))
              && r.value == result + AnchorsUpTo(segmentFaces, selections, n, SegmentCount(section))
  {
    var anchors: seq<Anchor> := [];
    var i := 0;
    while i < SegmentCount(section)
      invariant 0 <= i <= SegmentCount(section)
      invariant FitsEverySegment(segmentFaces, n, i)
      invariant i > 0 ==> n >= 0
      invariant n >= 0 ==> AllSampled(segmentFaces, selections, n, i)
      invariant n >= 0 ==> anchors == AnchorsUpTo(segmentFaces, selections, n, i)
      invariant n < 0 ==> anchors == []
    {
      if n < 0 || n > |segmentFaces[i]| {
        MissesSegment(segmentFaces, n, SegmentCount(section), i);
        return Failure(SampleLargerThanPopulation);
      }
      var block := SegmentBlock(i, segmentFaces[i], selections[i], n);
      ghost var expected := SegmentAnchors(segmentFaces, selections, n, i);
      assert |expected| == n;
      assert forall q :: 0 <= q < n ==> block[q] == expected[q];
      assert block == expected;
      anchors := anchors + block;
      i := i + 1;
    }
    r := Success(result + anchors);
  }
}
